=== FILE: README.md ===
# gweb routing and dispatch, modelled in Dafny

gweb is a small HTTP toolkit written in Go. A `Web` server keeps four things:

- a router;
- a list of global middlewares;
- a logging flag;
- a CORS configuration.

Routes are registered with `Get`, `Post`, `Put`, `Delete`, `Options` and `Patch`, either on the server or on a `WebGroup` that has its own prefix, middlewares and router. Each registration allocates one `WebContext` and installs a handler closure. For every request to that route, the closure does these steps in order:

1. stores the request and the response writer in the context;
2. runs the route's middlewares in order and stops at the first error (401 for token errors, 400 for anything else);
3. applies default or custom CORS, if either is configured;
4. calls the route's handler, and sends a handler error with `SendError`;
5. sets the status to 200 if none was set;
6. logs the request, if logging is on.

The model has one module per source file, plus helpers:

- `Web` (web.go): the server object, registration, and the dispatch closure.
- `Group` (webgroup.go): route groups, and `Web.Group`.
- `Context` (webcontext.go): the context's state as a value, `CtxState`, with one function per operation. The `WebContext` class updates that state in place, one method per operation.
- `Middlewares` (middlewares.go): the JWT middleware, including claim injection, and the two CORS writers.
- `WebErrors` (webconstants.go): the messages and the error values.
- Helper modules:
  - `Mux`: the route table of `http.ServeMux`.
  - `Net`: headers, requests and the response writer, as values.
  - `Text`: `strings.HasPrefix`, `strings.Split` on a space, and joining with spaces.
  - `Wrappers`: Go's nil.
- `Scenarios`: the test file's scenarios, driven through `WebTest`.

How the Go constructs are represented:

- A handler or user middleware is a function from context state to `Step`, which holds the new state and the returned error.
- The JWT middleware is a value that carries its secret and the `jwt.Parse` function, taken as given.
- A route's context is an object that persists between requests.
- Dispatch returns a trace of events: each middleware run, CORS, the handler, and the log line. This trace states the ordering and "at most once" properties.
- `Web.Serve` is the value-level reference for one request. `Web.Web.Dispatch` is the imperative closure, proved equal to `Serve`.

In several places the code behaves differently from what its API suggests. The model follows the code:

- `SendError` sets 500 even when a status is already set.
- On `OPTIONS`, CORS writes 200, but the handler still runs; nothing short-circuits.
- A group route's chain is the global list overwritten in place by the group's list (Go's `copy`). It is not `global ++ group`, so its length is always that of the global list.
- `WithCustomCors` stores the method list into `customHeader`, and `custMethods` is never assigned. As a result, no `Access-Control-Allow-Methods` header is ever written by custom CORS.
- The JWT `Authorization` value is split at every space, not only the first one.
- A nil handler is not checked.
- `Group` with a bad prefix ends the program (`log.Fatal`); it does not return an error.
- A server can have only one group. Each `Group` call registers its router under "/" on the server's router (web.go:172), and `http.ServeMux` panics when "/" is registered a second time.
- `ReplyStatus` is bookkeeping only. The body writers' calls to `WriteHeader(ReplyStatus)` are commented out (webcontext.go:67, 87, 105), so `Status(n)` never reaches the wire: the first body write sends 200. The `ReplyStatus` field is still used for the default-200 step and the log line.
- One `WebContext` per route is shared by every request on that route. `ReplyStatus` and the query cache carry over from one request to the next.
- A group router is mounted at "/", so it receives every request that has no exact route on the server's router, not only requests under its prefix.

The 404 body ("404 page not found") and the 405 body ("Method Not Allowed") are those `net/http` writes; that library is not part of this model.

## Model

| member | source | states |
|---|---|---|
| Context.CtxState.GetParam | webcontext.go:14-20 | the query is parsed into the cache only when the cache is empty; the value returned is the cache's entry for the key |
| Context.CtxState.Status | webcontext.go:29-35 | the stored status is the argument, raised to 200 when below 200; nothing else changes |
| Context.CtxState.SendError | webcontext.go:38-41 | `ReplyStatus` becomes 500 whatever it was; a status line not yet written becomes 500; the body gains the message and a newline (unless the connection is broken); the content type is plain text |
| Context.CtxState.ParseBody | webcontext.go:44-52 | a nil target yields `InvalidData`; otherwise the decoder's result is returned; the state is untouched |
| Context.CtxState.DefaultStatus | webcontext.go:64-66 | the status a body write leaves: the recorded one if set, 200 if unset (the same test recurs at webcontext.go:84-86 and 102-104) |
| Context.CtxState.JSON | webcontext.go:55-73 | nil data yields `InvalidData` and leaves the state unchanged; otherwise the result is nil, the content type is `application/json`, an unset `ReplyStatus` becomes 200, the encoding and a newline are appended, and an encoding or write failure is only logged: the body stays as it was and nil is still returned. The status line is the implicit 200 of the write (or the one already sent), whatever `ReplyStatus` holds, and an unencodable value sends none; all other headers and the broken flag are kept |
| Context.CtxState.SendString | webcontext.go:76-95 | always nil; the content type is the first optional argument or plain text; an unset `ReplyStatus` becomes 200; the text is appended unless the connection is broken. A non-empty text sends the implicit 200 status line (unless one was sent), whatever `ReplyStatus` holds, and an empty one sends none; all other headers and the broken flag are kept |
| Context.CtxState.SendBytes | webcontext.go:98-113 | as `SendString`, with content type `application/octet-stream`: the status line sent is 200 whatever `ReplyStatus` holds, and other headers are kept |
| Context.CtxState.RenderString | webcontext.go:116-119 | as `SendString`, with content type `text/html; charset=utf-8`: the status line sent is 200 whatever `ReplyStatus` holds, other headers are kept, and the request and cache are untouched |
| Context.OperationsKeepStatusValid | webcontext.go:29-119 | every context operation keeps `ReplyStatus` either unset or at least 200 |
| Context.BodyWritesKeepSetStatus | webcontext.go:64-66 | once set, `ReplyStatus` is kept by `JSON`, `SendString`, `SendBytes` and `RenderString` |
| Context.QueryParsedOnce | webcontext.go:16-19 | after the first `GetParam`, later calls read the cache even if the request was replaced |
| Context.WebContext.constructor | web.go:109-114 | a new context has no request, no writer, no cache and status 0 |
| Context.WebContext.Load | web.go:138 | the context holds the state a handler left |
| Context.WebContext.GetParam | webcontext.go:14-20 | the in-place update equals `CtxState.GetParam` |
| Context.WebContext.Status | webcontext.go:29-35 | the in-place update equals `CtxState.Status`, and the same context is returned |
| Context.WebContext.SendError | webcontext.go:38-41 | the in-place update equals `CtxState.SendError` |
| Context.WebContext.ParseBody | webcontext.go:44-52 | the result equals `CtxState.ParseBody` |
| Context.WebContext.JSON | webcontext.go:55-73 | the in-place update and the result equal `CtxState.JSON` |
| Context.WebContext.SendString | webcontext.go:76-95 | the in-place update and the result equal `CtxState.SendString` |
| Context.WebContext.SendBytes | webcontext.go:98-113 | the in-place update and the result equal `CtxState.SendBytes` |
| Context.WebContext.RenderString | webcontext.go:116-119 | the in-place update and the result equal `CtxState.RenderString` |
| Text.HasPrefix | web.go:183 | `s` has the prefix exactly when `s` is the prefix followed by the rest of `s` |
| Text.SpacesConcat | middlewares.go:77-84 | the spaces in a concatenation are those of its two parts |
| Text.JoinSpaces | middlewares.go:77-84 | joining space-free items puts exactly one space between neighbours: the joined string holds one space fewer than there are items |
| Text.Split | middlewares.go:41 | splitting a string on spaces gives at least one piece |
| Text.SplitCount | middlewares.go:41-44 | the number of pieces is the number of spaces plus one |
| Text.SpacesZero | middlewares.go:41-44 | a string has no spaces exactly when its space count is zero |
| Text.SplitHasTwoParts | middlewares.go:41-44 | there are at least two pieces exactly when the string holds a space |
| Text.SplitPartsHaveNoSpace | middlewares.go:41-45 | no piece holds a space |
| Text.JoinCons | middlewares.go:77-84 | joining a non-empty list puts its first item, then a space, before the rest |
| Text.JoinSplit | middlewares.go:41 | joining the pieces with spaces gives back the string |
| Text.SplitJoin | middlewares.go:77-84 | splitting a space-joined list of space-free items gives back the list |
| Text.SplitWord | middlewares.go:41-44 | a space-free string is one piece |
| Text.SplitAppend | middlewares.go:41-45 | splitting "word rest" gives the word, then the pieces of the rest |
| Text.JoinSnoc | middlewares.go:77-84 | joining a list with one more item appends a space and the item |
| Text.JoinWithSpaces | middlewares.go:77-84 | the buffer loop writes exactly the space-joined list |
| WebErrors.WebError.Message | middlewares.go:13-23 | `InvalidToken` and `ExpiredToken` report their constant messages; any other error reports its own text |
| WebErrors.WebError.Root | web.go:124 | the end of an error's unwrap chain, which `errors.Is` compares against; it is never a wrapping error |
| WebErrors.WebError.IsTokenError | web.go:124 | an error counts as a token error exactly when the end of its unwrap chain is `InvalidToken` or `ExpiredToken` |
| Net.HttpError | web.go:125-127 | the status line is the code unless one was already written; the message and a newline are appended (unless the connection is broken); Content-Length is removed; the content type is plain text and nosniff is set; every other header is kept |
| Middlewares.InjectClaims | middlewares.go:54-62 | every string claim is appended to its header's values; other claims and headers are left as they were |
| Middlewares.ClaimBecomesHeader | middlewares.go:54-62 | a string claim missing from the header becomes visible through `Header.Get` |
| Middlewares.MiddlewareJwt | middlewares.go:35-36 | the middleware built for a secret, run on any context state, replaces the request header by `JwtCheck`'s header and returns `JwtCheck`'s error; nothing else changes |
| Middlewares.JwtCheck | middlewares.go:35-68 | with the value split at every space: fewer than two pieces gives `InvalidToken`; otherwise the second piece is parsed, and a parse failure gives `ExpiredToken`, claims that are not a map give `InvalidToken`, and map claims give nil with those claims injected; an error leaves the header unchanged |
| Middlewares.JwtMissingHeader | middlewares.go:37-40 | an empty or missing `Authorization` yields `InvalidToken` |
| Middlewares.JwtNoScheme | middlewares.go:41-44 | a value without a space yields `InvalidToken` |
| Middlewares.JwtBearer | middlewares.go:41-64 | for "scheme token": a parse failure yields `ExpiredToken`, non-map claims yield `InvalidToken`, and map claims are injected |
| Middlewares.InjectOneMore | middlewares.go:54-62 | injecting one more claim extends the previous injection |
| Middlewares.AddStringClaims | middlewares.go:54-62 | the loop over the claims leaves the request header equal to `InjectClaims` and changes nothing else |
| Middlewares.RunJwt | middlewares.go:35-68 | the middleware's in-place effect and its result equal `JwtCheck` |
| Middlewares.CorsKeysDistinct | middlewares.go:75-95 | the three CORS header names are pairwise distinct, so setting one never overwrites another |
| Middlewares.Apply | web.go:122 | the JWT middleware changes only the request header; when it refuses a request, it changes nothing and reports a token error |
| Middlewares.ApplyMiddleware | web.go:122 | running a middleware on the context equals applying it to the state |
| Middlewares.CorsCustomApplied | middlewares.go:71-105 | Origin is `*`; Allow-Headers and Allow-Methods are each the space-joined list when that list is non-empty and are untouched otherwise; other headers and the body are untouched; an `OPTIONS` request gets status 200 if none was written |
| Middlewares.CustomCorsKeepsOrder | middlewares.go:75-97 | the written values split back into the lists they came from, in order |
| Middlewares.Preflight | middlewares.go:100-104 | on an `OPTIONS` request, 200 is written unless a status line already went out; other requests keep their status line; headers, body and broken flag are never touched (the same step recurs at middlewares.go:114-118) |
| Middlewares.CorsDefaultApplied | middlewares.go:108-119 | the three fixed headers are set, other headers are untouched, and `OPTIONS` gets 200 |
| Middlewares.MiddlewareCorsCustom | middlewares.go:71-105 | the in-place update equals `CorsCustomApplied` |
| Middlewares.MiddlewareCorsDefault | middlewares.go:108-119 | the in-place update equals `CorsDefaultApplied` |
| Mux.RouteKey | web.go:186 | the key is the method, one space, then the pattern, in that order and nothing more (the same key is built at web.go:196, 206, 215, 223, 231 and webgroup.go:17, 25, 33, 41, 49, 57) |
| Mux.KeyParts | web.go:186 | a key "METHOD pattern" splits back into its method and pattern |
| Mux.KeyInjective | web.go:186-231 | distinct (method, pattern) pairs give distinct keys |
| Mux.KeyPathOf | gweb_test.go:77-126 | for a method without spaces, the path part of a route key is the registered pattern |
| Mux.Match | gweb_test.go:77-126 | a request is found exactly when its "METHOD path" key is registered, and then reaches that key's route; for a method without spaces, it is answered 404 exactly when no route has its path (405 otherwise) |
| Mux.RegisteredRouteIsFound | web.go:155 | a registered method and path reach their route |
| Mux.OtherMethodIsNotAllowed | gweb_test.go:77-100 | a known path under an unregistered method is answered 405 |
| Mux.UnknownPathIsNotFound | gweb_test.go:103-126 | a path no key ends in is answered 404 |
| Mux.Resolve | web.go:172 | an exact route wins; otherwise a router mounted at "/" answers with its own table |
| Mux.MountTurnsMethodNotAllowedIntoNotFound | web.go:172 | after a group is mounted, a wrong method on a top-level path is answered by the group router, so 404 rather than 405 |
| Mux.ServeMux.constructor | web.go:163 | a new router is empty and has nothing mounted |
| Mux.ServeMux.Handle | web.go:172 | mounting at "/" succeeds only once; a second attempt changes nothing |
| Mux.ServeMux.HandleFunc | web.go:152-155 | the key is bound to the route and nothing else changes |
| Web.GoCopy | web.go:115 | the result has the destination's length, with the source's items in front and the destination's items after them |
| Web.GroupChainOverwritesGlobal | web.go:150-151 | when the group has at least as many middlewares as the global list, the chain is the group's list cut to the global length |
| Web.RunChain | web.go:120-131 | the middlewares run in order, each on the previous one's state; a failure names a middleware of the chain |
| Web.RunChainSnoc | web.go:120-131 | one more middleware after a passing prefix decides the outcome |
| Web.FailedPrefix | web.go:120-131 | a helper: when all but the last middleware already failed, that failure is the chain's result |
| Web.FailurePersists | web.go:124-130 | once a prefix has failed, later middlewares do not run |
| Web.ChainStopsAtFirstError | web.go:120-131 | the failing middleware is the first to fail, and every middleware before it passed |
| Web.ChainPassedAll | web.go:120-131 | a chain that passes ran every middleware without error |
| Web.ApplyCors | web.go:132-137 | only the writer changes and the body is untouched; with CORS off, nothing changes; with CORS on, any origin is allowed and an `OPTIONS` request has 200 written unless a status line went out; other methods keep their status line |
| Web.CorsChoice | web.go:132-137 | default CORS, when on, is applied and the custom lists are ignored; otherwise custom CORS is applied when either list is set |
| Web.Finalise | web.go:142-145 | an unset `ReplyStatus` becomes 200 and a status line is written; a set one is kept; headers, body, request and cache are untouched |
| Web.Settle | web.go:138-145 | after the handler, `ReplyStatus` is never 0, and it is 500 whenever the handler returned an error |
| Web.AfterChain | web.go:132-148 | once the middlewares pass, the handler always runs, the status is set, and a handler error leaves 500 |
| Web.Serve | web.go:116-149 | on a middleware failure, a status line is always written and the trace is exactly the middlewares up to the failing one; otherwise the status is set and the handler ran |
| Web.PassedTrace | web.go:120-148 | the trace of a request that passes its n middlewares: the middlewares in order, CORS if enabled, the handler exactly once, and the log line once if logging is on |
| Web.MiddlewareErrorStatus | web.go:124-129 | 401 exactly for token errors, 400 for every other error |
| Web.JwtErrorsAreUnauthorized | web.go:124-126 | every JWT middleware error is answered 401 |
| Web.CustomCorsNeverAllowsMethods | web.go:51-59 | with `custMethods` never assigned, custom CORS never writes Allow-Methods |
| Web.CountsOfConcat | web.go:116-149 | handler and log counts add up over a concatenated trace |
| Web.ChainEventsCounts | web.go:120-131 | the middleware trace holds no handler, log or CORS event |
| Web.MiddlewareFailureStopsDispatch | web.go:120-131 | on a middleware failure, only the middlewares up to the failing one run; CORS, the handler and the logger do not; the response is `http.Error` with 401 or 400; the result depends on neither the handler nor any of the server's settings |
| Web.DispatchOrder | web.go:120-148 | with every middleware passing: the middlewares run in order, then CORS if enabled, then the handler exactly once; the request is logged once if logging is on and never otherwise |
| Web.LoggedAtMostOnce | web.go:146-148 | a request is logged at most once |
| Web.DefaultCorsWins | web.go:132-137 | with default CORS on, the custom lists make no difference |
| Web.HandlerErrorIsInternalServerError | web.go:138-141 | a handler error leaves status 500 and appends the message to the body |
| Web.HandlerSuccessIsFinal | web.go:138-145 | a handler that returns nil after setting a status leaves the context as it left it |
| Web.StatusNeverReachesTheWire | webcontext.go:87 | a handler that calls `Status(n)` and then sends text leaves `ReplyStatus` at n (raised to 200), while the status line sent is 200 |
| Web.SendAfterStatus | webcontext.go:76-95 | a helper: the same on the handler step alone |
| Web.UnsetStatusBecomesOK | web.go:142-145 | a handler that sets no status ends with 200, and 200 is written unless a status line already went out |
| Web.ReplyStatusIsSet | web.go:142-145 | after the handler step, `ReplyStatus` is never 0 |
| Web.PreflightStillRunsHandler | web.go:132-138 | on `OPTIONS`, CORS writes the status line and the handler still runs |
| Web.SecondRequestSeesFirstQuery | web.go:109-119 | the shared context's query cache makes a second request read the first request's query |
| Web.EchoServe | web.go:116-149 | a request on a param-echo route echoes the cached query |
| Web.StaleReplyStatusSkipsDefault | web.go:142-145 | a status left by an earlier request skips the default-200 step |
| Web.RunMiddlewares | web.go:120-131 | the middleware loop equals `RunChain`; on failure the response gets `http.Error` with the mapped status |
| Web.HandleAndSettle | web.go:138-145 | running the handler on the context, sending its error and setting the default status equals `Settle` |
| Web.FinaliseStatus | web.go:142-145 | an unset status becomes 200 and 200 is written |
| Web.Web.constructor | web.go:25-30 | a new server has an empty router, no middlewares, and no logging or CORS |
| Web.Web.WithLogging | web.go:39-42 | logging is switched on; nothing else changes |
| Web.Web.WithDefaultCors | web.go:45-48 | default CORS is switched on; nothing else changes |
| Web.Web.WithCustomCors | web.go:51-59 | `customHeader` ends up as the non-nil methods, or else the non-nil headers, or else unchanged; `custMethods` is unchanged |
| Web.Web.Use | web.go:177-179 | the global list gains the middleware at the end; routes already registered are untouched |
| Web.Web.AddRoute | web.go:107-158 | a fresh context and the global list (overwritten by the group's list for a group route) are registered under the key in the right router |
| Web.Web.Get | web.go:182-188 | `InvalidPath` exactly when the pattern lacks a leading "/", and then the router is left exactly as it was, routes and mounted group included; otherwise "GET pattern" is added with the current global list |
| Web.Web.Post | web.go:191-199 | as `Get`, with "POST" |
| Web.Web.Delete | web.go:202-208 | as `Get`, with "DELETE" |
| Web.Web.Put | web.go:211-218 | as `Get`, with "PUT" |
| Web.Web.Options | web.go:219-226 | as `Get`, with "OPTIONS" |
| Web.Web.Patch | web.go:227-233 | as `Get`, with "PATCH" |
| Web.Web.ApplyCorsTo | web.go:132-137 | default CORS if on; else custom CORS if either list is non-nil; else nothing |
| Web.Web.AfterMiddlewares | web.go:132-148 | the CORS, handler and logging part of the closure leaves the context and the events equal to `AfterChain` |
| Web.Web.Dispatch | web.go:116-149 | the closure leaves the context and the trace equal to `Serve` on the context's previous state and the server's current settings |
| Web.Web.ServeHTTP | web.go:237-239 | a matched route is dispatched and only its context changes; otherwise the router answers 405 or 404 and no context changes |
| Web.Web.WebTest | web.go:237-240 | the top-level router serves the request; only the matched route's context changes |
| Group.WebGroup.constructor | web.go:162-168 | a new group has its own empty router, the prefix, the server, and no middlewares |
| Group.WebGroup.Use | webgroup.go:10-12 | the group's list gains the middleware at the end |
| Group.WebGroup.Register | webgroup.go:13-19 | `InvalidPath` exactly when the pattern lacks "/"; otherwise "METHOD prefix+pattern" is added to the group's router with the global list overwritten by the group's; the server's router is untouched |
| Group.WebGroup.Get | webgroup.go:13-19 | as `Register`, with "GET" |
| Group.WebGroup.Post | webgroup.go:21-27 | as `Register`, with "POST" |
| Group.WebGroup.Put | webgroup.go:29-35 | as `Register`, with "PUT" |
| Group.WebGroup.Patch | webgroup.go:37-43 | as `Register`, with "PATCH" |
| Group.WebGroup.Delete | webgroup.go:45-51 | as `Register`, with "DELETE" |
| Group.WebGroup.Options | webgroup.go:53-59 | as `Register`, with "OPTIONS" |
| Group.NewGroup | web.go:161-174 | no group for a prefix without "/" or for a second group; otherwise a new group whose router is mounted at "/" |
| Scenarios.ReplyWrites | gweb_test.go:18-21 | the test handler writes its text with status 200 |
| Scenarios.TraceWithoutLogging | web.go:146-148 | without logging, the trace ends with the handler |
| Scenarios.ServeReply | gweb_test.go:15-43 | a reply route answers with its text and status 200, after any CORS headers |
| Scenarios.ServeGetUser | gweb_test.go:129-169 | the JSON route answers with the encoding and a newline, status 200 |
| Scenarios.ServeJwtReject | middlewares.go:37-40 | without `Authorization`, a JWT route answers 401 "Invalid Token" and only the middleware runs |
| Scenarios.CustomCorsHeaders | gweb_test.go:203-232 | the custom CORS of the test writes the method list as Allow-Headers and writes no Allow-Methods |
| Scenarios.TestGet | gweb_test.go:15-43 | GET /world answers 200 "Hello, world!" |
| Scenarios.TestPost | gweb_test.go:46-74 | POST /save answers 200 "OK" |
| Scenarios.TestWrongMethod | gweb_test.go:77-100 | method "Get" on a POST route answers 405 |
| Scenarios.TestWrongRoute | gweb_test.go:103-126 | an unknown path answers 404 |
| Scenarios.TestJSON | gweb_test.go:129-169 | the JSON route answers 200 with the user's encoding |
| Scenarios.DefaultCorsReply | gweb_test.go:172-200 | with default CORS on, a reply route's answer carries the three fixed CORS headers |
| Scenarios.TestCors | gweb_test.go:172-200 | default CORS adds the three fixed headers; the answer is 200 with the text |
| Scenarios.TestCustomCors | gweb_test.go:203-232 | custom CORS adds Origin and the method list as Allow-Headers, and no Allow-Methods; the answer is 200 with the text |
| Scenarios.TestGroupMiddleware | gweb_test.go:235-261 | GET /v1/world on the group answers 200 "OK" through the mounted group router |
| Scenarios.TestJwtWithoutToken | middlewares.go:35-40 | a global JWT middleware answers a request without a token 401 before the handler |

## Left out

- The Redis message stream: `WithDefaultReaderWriter`, `WithMessageReaderWriter` and redisstream.go. These are network I/O to an external service.
- `Run`, the `http.Server` and `ListenAndServe`: network I/O.
- `New`'s `sync.OnceFunc` and the package-global `w`: `Web.Web.constructor` models one fresh server.
- `Logger` and `GetWebLogger`.
- Log output: the log line is only a trace event carrying its four fields. The text of the line and the logger are left out.
- `RenderFiles` (templates), `GetPathValue` and the WebSocket path. They are not part of the routing and dispatch core.
- JSON encoding and decoding: a value either encodes to a given text or fails, and a decoder is a given function.
- `jwt.Parse`: a given function of token and secret.
- Concurrency: requests are sequential. Two concurrent requests on one route share a context in the source; the model does not capture that race.
- Header key canonicalisation by `http.Header`: keys are compared as written.
- `http.ServeMux`:
  - A duplicate route pattern makes the real router panic; `Mux.ServeMux.HandleFunc` replaces the route instead.
  - Wildcards, subtree patterns other than the mounted "/", HEAD matching GET, and the `Allow` header of a 405 answer are not modelled.
  - A router mounted on a mounted router is not consulted.
- Response headers stay editable after the status line is written; real headers are frozen at that point. Two kinds of reply carry headers in the model that never reach the wire. One is a preflight (`OPTIONS`) reply with CORS on: CORS writes the 200 status line, then the handler's `SendString`, `JSON` or `SendBytes` sets Content-Type. The other is a `SendError` after the handler has already written body: `http.Error` then sets its headers too late.
- The dispatch closure writes middleware errors through the `http.ResponseWriter` it receives (web.go:125, 127). The model writes them through the context's writer. The two differ only when a middleware assigns another writer to `ctx.Writer`. Writers are values in the model, so a replaced writer cannot be told apart from an updated one, and that case is not modelled.
- Group.NewGroup: a second `Group` call panics in `http.ServeMux`; the model returns no group and leaves the server's router unchanged (`Mux.ServeMux.Handle` refuses the second mount).
- The request body is a string. Reading it in `ParseBody` does not consume it.
- `SendString`, `SendBytes` and `RenderString` take the reader's contents as a string.
- `Scenarios.TestJwtWithoutToken` has no counterpart in the test file: no test exercises the JWT middleware.

=== FILE: middlewares.dfy ===
/**
 * middlewares.go: the JWT middleware, the two CORS writers, and the
 * middleware values a route's chain is made of.
 */
module Middlewares {
  import opened Wrappers
  import opened Net
  import opened WebErrors
  import opened Context
  import opened Text

  const AllowOrigin := "Access-Control-Allow-Origin"
  const AllowMethods := "Access-Control-Allow-Methods"
  const AllowHeaders := "Access-Control-Allow-Headers"
  const DefaultAllowedMethods := "GET, POST, PUT, DELETE, OPTIONS"
  const DefaultAllowedHeaders := "Content-Type, Authorization"

  /** A claim value: a string, or anything else (a number, a list, ...). */
  datatype Claim = StringClaim(value: string) | OtherClaim

  /**
   * What `jwt.Parse` yields: an error (bad signature, expired, malformed),
   * a token whose claims are a map, or a token with claims of another shape.
   */
  datatype ParseOutcome = ParseFailed | MapClaims(claims: map<string, Claim>) | OtherClaims

  /** `jwt.Parse(token, keyFunc returning secret)`, taken as given. */
  type JwtParser = (string, string) -> ParseOutcome

  /**
   * A middleware in a route's chain: the closure `MiddlewareJwt(secret)`
   * returns, or any other `WebHandler`.
   */
  datatype Middleware = Jwt(secret: string, parse: JwtParser) | Func(run: WebHandler)

  /** `MiddlewareJwt(secret)`: a middleware that runs `JwtCheck` on the request header. */
  function MiddlewareJwt(secret: string, parse: JwtParser): (m: Middleware)
    ensures forall s: CtxState {:trigger Apply(m, s)} ::
              var c := JwtCheck(s.request.header, secret, parse);
              Apply(m, s) == Step(s.(request := s.request.(header := c.header)), c.err)
  {
    Jwt(secret, parse)
  }

  /** The claims whose value is a string. */
  function StringClaimKeys(claims: map<string, Claim>): set<string>
  {
    set k | k in claims && claims[k].StringClaim?
  }

  /**
   * The request header after `Header.Add(k, v)` for every string claim
   * `k: v`; other claims are skipped.
   */
  function InjectClaims(h: Header, claims: map<string, Claim>): (r: Header)
    ensures r.Keys == h.Keys + StringClaimKeys(claims)
    ensures forall k :: k in StringClaimKeys(claims) ==>
              r[k] == (if k in h then h[k] else []) + [claims[k].value]
    ensures forall k :: k !in StringClaimKeys(claims) ==> SameEntry(h, r, k)
  {
    map k | k in h.Keys + StringClaimKeys(claims) ::
      if k in claims && claims[k].StringClaim? then (if k in h then h[k] else []) + [claims[k].value] else h[k]
  }

  /** A claim the request did not carry as a header becomes visible through `Header.Get`. */
  lemma ClaimBecomesHeader(h: Header, claims: map<string, Claim>, k: string, v: string)
    requires k in claims && claims[k] == StringClaim(v)
    requires k !in h
    ensures HeaderGet(InjectClaims(h, claims), k) == v
  {
    assert k in StringClaimKeys(claims);
  }

  datatype JwtResult = JwtResult(header: Header, err: Option<WebError>)

  /**
   * The JWT middleware on a request header: the `Authorization` value is
   * split at every space and its second piece is parsed.
   */
  function JwtCheck(h: Header, secret: string, parse: JwtParser): (r: JwtResult)
    ensures r.err.Some? ==> r.header == h && r.err.value.IsTokenError()
    ensures r.err.None? <==>
              |Split(HeaderGet(h, Authorization))| >= 2 &&
              parse(Split(HeaderGet(h, Authorization))[1], secret).MapClaims?
    ensures r.err.None? ==>
              |Split(HeaderGet(h, Authorization))| >= 2 &&
              r.header == InjectClaims(h, parse(Split(HeaderGet(h, Authorization))[1], secret).claims)
    ensures var t := Split(HeaderGet(h, Authorization));
            r.err == if |t| < 2 then Some(InvalidToken)
                     else match parse(t[1], secret)
                       case ParseFailed => Some(ExpiredToken)
                       case OtherClaims => Some(InvalidToken)
                       case MapClaims(_) => None
  {
    var tokenString := HeaderGet(h, Authorization);
    SplitHasTwoParts(tokenString);
    if |tokenString| == 0 then JwtResult(h, Some(InvalidToken))
    else
      var tok := Split(tokenString);
      if |tok| < 2 then JwtResult(h, Some(InvalidToken))
      else
        match parse(tok[1], secret)
        case ParseFailed => JwtResult(h, Some(ExpiredToken))
        case MapClaims(claims) => JwtResult(InjectClaims(h, claims), None)
        case OtherClaims => JwtResult(h, Some(InvalidToken))
  }

  /** A missing or empty `Authorization` header is an invalid token. */
  lemma JwtMissingHeader(h: Header, secret: string, parse: JwtParser)
    requires HeaderGet(h, Authorization) == ""
    ensures JwtCheck(h, secret, parse) == JwtResult(h, Some(InvalidToken))
  {
  }

  /** A header value without a space (no scheme before the token) is an invalid token. */
  lemma JwtNoScheme(h: Header, secret: string, parse: JwtParser)
    requires ' ' !in HeaderGet(h, Authorization)
    ensures JwtCheck(h, secret, parse) == JwtResult(h, Some(InvalidToken))
  {
    SplitHasTwoParts(HeaderGet(h, Authorization));
  }

  /**
   * `Authorization: <scheme> <token>`: the token is what is parsed; any
   * parse failure is reported as an expired token, claims of another shape
   * as an invalid token, and map claims are injected.
   */
  lemma JwtBearer(h: Header, scheme: string, token: string, secret: string, parse: JwtParser)
    requires ' ' !in scheme && ' ' !in token
    requires HeaderGet(h, Authorization) == scheme + " " + token
    ensures parse(token, secret).ParseFailed? ==> JwtCheck(h, secret, parse) == JwtResult(h, Some(ExpiredToken))
    ensures parse(token, secret).OtherClaims? ==> JwtCheck(h, secret, parse) == JwtResult(h, Some(InvalidToken))
    ensures parse(token, secret).MapClaims? ==>
              JwtCheck(h, secret, parse) == JwtResult(InjectClaims(h, parse(token, secret).claims), None)
  {
    SplitAppend(scheme, token);
    SplitWord(token);
    SplitHasTwoParts(scheme + " " + token);
  }

  /** The claims of `claims` whose keys are in `done`. */
  function Restrict(claims: map<string, Claim>, done: set<string>): map<string, Claim>
  {
    map k | k in claims && k in done :: claims[k]
  }

  /** The header `k` after adding a string claim `k: v` that was not there. */
  lemma InjectAtAdded(h: Header, done: map<string, Claim>, k: string, v: string)
    requires k !in done
    ensures k in InjectClaims(h, done[k := StringClaim(v)])
    ensures InjectClaims(h, done[k := StringClaim(v)])[k] == HeaderAdd(InjectClaims(h, done), k, v)[k]
  {
    assert k in StringClaimKeys(done[k := StringClaim(v)]);
    assert k !in StringClaimKeys(done);
    assert SameEntry(h, InjectClaims(h, done), k);
  }

  /** Any other header is the same with or without the claim `k: v`. */
  lemma InjectAtOther(h: Header, done: map<string, Claim>, k: string, v: string, key: string)
    requires k !in done && key != k
    ensures SameEntry(InjectClaims(h, done), InjectClaims(h, done[k := StringClaim(v)]), key)
  {
    var more := done[k := StringClaim(v)];
    if key in StringClaimKeys(done) {
      assert key in StringClaimKeys(more) && more[key] == done[key];
    } else {
      assert key !in StringClaimKeys(more);
      assert SameEntry(h, InjectClaims(h, more), key) && SameEntry(h, InjectClaims(h, done), key);
    }
  }

  /** Adding a string claim `k: v` to claims that lack `k` appends `v` to the header `k`. */
  lemma InjectExtendString(h: Header, done: map<string, Claim>, k: string, v: string)
    requires k !in done
    ensures InjectClaims(h, done[k := StringClaim(v)]) == HeaderAdd(InjectClaims(h, done), k, v)
  {
    var after := InjectClaims(h, done[k := StringClaim(v)]);
    var expected := HeaderAdd(InjectClaims(h, done), k, v);
    forall key
      ensures SameEntry(after, expected, key)
    {
      if key == k {
        InjectAtAdded(h, done, k, v);
      } else {
        InjectAtOther(h, done, k, v, key);
      }
    }
    assert after.Keys == expected.Keys;
  }

  /** Adding a claim that is not a string changes no header. */
  lemma InjectExtendOther(h: Header, done: map<string, Claim>, k: string)
    requires k !in done
    ensures InjectClaims(h, done[k := OtherClaim]) == InjectClaims(h, done)
  {
    assert StringClaimKeys(done[k := OtherClaim]) == StringClaimKeys(done);
  }

  lemma InjectOneMore(h: Header, claims: map<string, Claim>, done: set<string>, k: string)
    requires k in claims && k !in done
    ensures InjectClaims(h, Restrict(claims, done + {k})) ==
            (match claims[k]
             case StringClaim(v) => HeaderAdd(InjectClaims(h, Restrict(claims, done)), k, v)
             case OtherClaim => InjectClaims(h, Restrict(claims, done)))
  {
    assert Restrict(claims, done + {k}) == Restrict(claims, done)[k := claims[k]];
    match claims[k]
    case StringClaim(v) => InjectExtendString(h, Restrict(claims, done), k, v);
    case OtherClaim => InjectExtendOther(h, Restrict(claims, done), k);
  }

  /** The loop over the token's claims, adding each string claim as a request header. */
  method AddStringClaims(ctx: WebContext, claims: map<string, Claim>)
    modifies ctx
    ensures ctx.State() == old(ctx.State()).(request := old(ctx.request).(header := InjectClaims(old(ctx.request.header), claims)))
  {
    ghost var h0 := ctx.request.header;
    ghost var done: set<string> := {};
    var todo := claims.Keys;
    assert Restrict(claims, done) == map[];
    assert InjectClaims(h0, map[]) == h0;
    while todo != {}
      invariant todo == claims.Keys - done
      invariant done <= claims.Keys
      invariant ctx.State() == old(ctx.State()).(request := old(ctx.request).(header := InjectClaims(h0, Restrict(claims, done))))
      decreases todo
    {
      var k :| k in todo;
      InjectOneMore(h0, claims, done, k);
      match claims[k] {
        case StringClaim(v) =>
          ctx.request := ctx.request.(header := HeaderAdd(ctx.request.header, k, v));
        case OtherClaim =>
      }
      todo := todo - {k};
      done := done + {k};
    }
    assert Restrict(claims, done) == claims;
  }

  /** The closure returned by `MiddlewareJwt(secret)`, run against a context. */
  method RunJwt(ctx: WebContext, secret: string, parse: JwtParser) returns (err: Option<WebError>)
    modifies ctx
    ensures var r := JwtCheck(old(ctx.request.header), secret, parse);
            err == r.err && ctx.State() == old(ctx.State()).(request := old(ctx.request).(header := r.header))
  {
    var tokenString := HeaderGet(ctx.request.header, Authorization);
    if |tokenString| == 0 {
      return Some(InvalidToken);
    }
    var tok := Split(tokenString);
    if |tok| < 2 {
      return Some(InvalidToken);
    }
    var outcome := parse(tok[1], secret);
    match outcome {
      case ParseFailed =>
        return Some(ExpiredToken);
      case MapClaims(claims) =>
        AddStringClaims(ctx, claims);
      case OtherClaims =>
        return Some(InvalidToken);
    }
    return None;
  }

  /**
   * One middleware of a chain run against a context state. The JWT
   * middleware touches nothing but the request header, and when it refuses
   * a request, it touches nothing at all and reports a token error.
   */
  function Apply(mw: Middleware, s: CtxState): (r: Step)
    ensures mw.Jwt? ==> r.state == s.(request := s.request.(header := r.state.request.header))
    ensures mw.Jwt? && r.err.Some? ==> r.state == s && r.err.value.IsTokenError()
  {
    match mw
    case Jwt(secret, parse) =>
      var r := JwtCheck(s.request.header, secret, parse);
      Step(s.(request := s.request.(header := r.header)), r.err)
    case Func(run) => run(s)
  }

  method ApplyMiddleware(ctx: WebContext, mw: Middleware) returns (err: Option<WebError>)
    modifies ctx
    ensures var st := Apply(mw, old(ctx.State())); ctx.State() == st.state && err == st.err
  {
    match mw {
      case Jwt(secret, parse) =>
        err := RunJwt(ctx, secret, parse);
      case Func(run) =>
        var st := run(ctx.State());
        ctx.Load(st.state);
        err := st.err;
    }
  }

  /** A CORS preflight (`OPTIONS`) request gets its status line, 200, written; nothing else is stopped. */
  function Preflight(s: CtxState, w: Writer): (r: Writer)
    ensures r.header == w.header && r.body == w.body && r.broken == w.broken
    ensures r.status == if s.request.httpMethod == MethodOptions && w.status.None? then Some(StatusOK) else w.status
  {
    if s.request.httpMethod == MethodOptions then w.WriteHeader(StatusOK) else w
  }

  /** The three CORS response headers are different keys. */
  lemma CorsKeysDistinct()
    ensures AllowOrigin != AllowHeaders && AllowOrigin != AllowMethods && AllowHeaders != AllowMethods
  {
    assert |AllowOrigin| != |AllowHeaders| && |AllowOrigin| != |AllowMethods|;
    assert AllowHeaders[21] != AllowMethods[21];
  }

  /**
   * `middlewareCorsCustom(ctx, headers, methods)`: any origin is allowed;
   * a non-empty header list and a non-empty method list are each written as
   * one space-joined value, in input order; an empty or nil list writes nothing.
   */
  function CorsCustomApplied(s: CtxState, headers: Option<seq<string>>, methods: Option<seq<string>>): (r: CtxState)
    ensures HasOnly(r.writer.header, AllowOrigin, "*")
    ensures headers.Some? && |headers.value| > 0 ==> HasOnly(r.writer.header, AllowHeaders, Join(headers.value))
    ensures !(headers.Some? && |headers.value| > 0) ==>
              SameEntry(s.writer.header, r.writer.header, AllowHeaders)
    ensures methods.Some? && |methods.value| > 0 ==> HasOnly(r.writer.header, AllowMethods, Join(methods.value))
    ensures !(methods.Some? && |methods.value| > 0) ==> SameEntry(s.writer.header, r.writer.header, AllowMethods)
    ensures forall k :: k != AllowOrigin && k != AllowHeaders && k != AllowMethods ==>
              SameEntry(s.writer.header, r.writer.header, k)
    ensures r.writer.status == if s.request.httpMethod == MethodOptions then s.writer.WriteHeader(StatusOK).status else s.writer.status
    ensures r.writer.body == s.writer.body && r.writer.broken == s.writer.broken
    ensures r == s.(writer := r.writer)
  {
    CorsKeysDistinct();
    var w0 := s.writer.SetHeader(AllowOrigin, "*");
    var w1 := if headers.Some? && |headers.value| > 0 then w0.SetHeader(AllowHeaders, Join(headers.value)) else w0;
    var w2 := if methods.Some? && |methods.value| > 0 then w1.SetHeader(AllowMethods, Join(methods.value)) else w1;
    s.(writer := Preflight(s, w2))
  }

  /**
   * Custom CORS keeps the order of its lists: the written value splits back
   * into the list it was built from, when no item holds a space.
   */
  lemma CustomCorsKeepsOrder(s: CtxState, headers: seq<string>, methods: seq<string>)
    requires |headers| > 0 && |methods| > 0
    requires forall i :: 0 <= i < |headers| ==> ' ' !in headers[i]
    requires forall i :: 0 <= i < |methods| ==> ' ' !in methods[i]
    ensures var r := CorsCustomApplied(s, Some(headers), Some(methods));
            Split(HeaderGet(r.writer.header, AllowHeaders)) == headers &&
            Split(HeaderGet(r.writer.header, AllowMethods)) == methods
  {
    SplitJoin(headers);
    SplitJoin(methods);
  }

  /** `middlewareCorsDefault(ctx)`: three fixed headers, and the preflight status. */
  function CorsDefaultApplied(s: CtxState): (r: CtxState)
    ensures HasOnly(r.writer.header, AllowOrigin, "*")
    ensures HasOnly(r.writer.header, AllowMethods, DefaultAllowedMethods)
    ensures HasOnly(r.writer.header, AllowHeaders, DefaultAllowedHeaders)
    ensures forall k :: k != AllowOrigin && k != AllowHeaders && k != AllowMethods ==>
              SameEntry(s.writer.header, r.writer.header, k)
    ensures r.writer.status == if s.request.httpMethod == MethodOptions then s.writer.WriteHeader(StatusOK).status else s.writer.status
    ensures r.writer.body == s.writer.body && r.writer.broken == s.writer.broken
    ensures r == s.(writer := r.writer)
  {
    var w := s.writer.SetHeader(AllowOrigin, "*")
                     .SetHeader(AllowMethods, DefaultAllowedMethods)
                     .SetHeader(AllowHeaders, DefaultAllowedHeaders);
    s.(writer := Preflight(s, w))
  }

  method MiddlewareCorsCustom(ctx: WebContext, headers: Option<seq<string>>, methods: Option<seq<string>>)
    modifies ctx
    ensures ctx.State() == CorsCustomApplied(old(ctx.State()), headers, methods)
  {
    ctx.writer := ctx.writer.SetHeader(AllowOrigin, "*");
    if headers.Some? && |headers.value| > 0 {
      var allowedHeaders := JoinWithSpaces(headers.value);
      ctx.writer := ctx.writer.SetHeader(AllowHeaders, allowedHeaders);
    }
    if methods.Some? && |methods.value| > 0 {
      var allowedMethods := JoinWithSpaces(methods.value);
      ctx.writer := ctx.writer.SetHeader(AllowMethods, allowedMethods);
    }
    if ctx.request.httpMethod == MethodOptions {
      ctx.writer := ctx.writer.WriteHeader(StatusOK);
      return;
    }
  }

  method MiddlewareCorsDefault(ctx: WebContext)
    modifies ctx
    ensures ctx.State() == CorsDefaultApplied(old(ctx.State()))
  {
    ctx.writer := ctx.writer.SetHeader(AllowOrigin, "*");
    ctx.writer := ctx.writer.SetHeader(AllowMethods, DefaultAllowedMethods);
    ctx.writer := ctx.writer.SetHeader(AllowHeaders, DefaultAllowedHeaders);
    if ctx.request.httpMethod == MethodOptions {
      ctx.writer := ctx.writer.WriteHeader(StatusOK);
      return;
    }
  }
}

=== FILE: mux.dfy ===
/**
 * The route table each router (`http.ServeMux`) keeps, reduced to what the
 * toolkit relies on: a map from "METHOD path" keys to routes, looked up by
 * exact match, answering 405 when only the method differs and 404 otherwise,
 * plus the router a group mounts under the subtree pattern "/".
 */
module Mux {
  import opened Wrappers
  import opened Net
  import opened Context
  import opened Middlewares

  /**
   * A registered route: the handler, the middleware chain captured when the
   * route was registered, and the one context allocated then.
   */
  datatype Route = Route(handler: WebHandler, chain: seq<Middleware>, ctx: WebContext)

  /** The key a route is registered under: `method + " " + pattern`. */
  function RouteKey(httpMethod: string, pattern: string): (k: string)
    ensures |k| == |httpMethod| + 1 + |pattern|
    ensures k[..|httpMethod|] == httpMethod && k[|httpMethod|] == ' ' && k[|httpMethod| + 1..] == pattern
  {
    httpMethod + " " + pattern
  }

  /** The method part of a key: everything before the first space. */
  function KeyMethod(key: string): string
  {
    if key == [] || key[0] == ' ' then "" else [key[0]] + KeyMethod(key[1..])
  }

  /** The path part of a key: everything after the first space. */
  function KeyPath(key: string): string
  {
    if key == [] then "" else if key[0] == ' ' then key[1..] else KeyPath(key[1..])
  }

  /** A key splits back into the method and the pattern it was built from. */
  lemma {:induction false} KeyParts(httpMethod: string, pattern: string)
    requires ' ' !in httpMethod
    ensures KeyMethod(RouteKey(httpMethod, pattern)) == httpMethod
    ensures KeyPath(RouteKey(httpMethod, pattern)) == pattern
  {
    if httpMethod != [] {
      assert RouteKey(httpMethod, pattern)[1..] == RouteKey(httpMethod[1..], pattern);
      KeyParts(httpMethod[1..], pattern);
      assert httpMethod == [httpMethod[0]] + httpMethod[1..];
    }
  }

  /** Distinct (method, pattern) pairs give distinct keys. */
  lemma KeyInjective(m1: string, p1: string, m2: string, p2: string)
    requires ' ' !in m1 && ' ' !in m2
    requires RouteKey(m1, p1) == RouteKey(m2, p2)
    ensures m1 == m2 && p1 == p2
  {
    KeyParts(m1, p1);
    KeyParts(m2, p2);
  }

  datatype MatchResult = Found(route: Route) | MethodNotAllowed | NotFound

  /** The path part of a key built from a space-free method is the pattern. */
  lemma KeyPathOf(httpMethod: string, pattern: string)
    ensures ' ' !in httpMethod ==> KeyPath(RouteKey(httpMethod, pattern)) == pattern
  {
    if ' ' !in httpMethod {
      KeyParts(httpMethod, pattern);
    }
  }

  /**
   * Dispatch of a request's method and path against a route table: the
   * exact key's route, else 405 when some route has the path, else 404.
   */
  function Match(routes: map<string, Route>, httpMethod: string, path: string): (r: MatchResult)
    ensures r.Found? <==> RouteKey(httpMethod, path) in routes
    ensures r.Found? ==> r.route == routes[RouteKey(httpMethod, path)]
    ensures ' ' !in httpMethod ==> (r.NotFound? <==> forall k :: k in routes ==> KeyPath(k) != path)
  {
    var key := RouteKey(httpMethod, path);
    KeyPathOf(httpMethod, path);
    if key in routes then Found(routes[key])
    else if exists k :: k in routes && KeyPath(k) == path then MethodNotAllowed
    else NotFound
  }

  /** A registered (method, path) reaches its route. */
  lemma RegisteredRouteIsFound(routes: map<string, Route>, httpMethod: string, path: string, r: Route)
    ensures Match(routes[RouteKey(httpMethod, path) := r], httpMethod, path) == Found(r)
  {
  }

  /** The same path under a method nobody registered is answered 405. */
  lemma OtherMethodIsNotAllowed(routes: map<string, Route>, registered: string, asked: string, path: string, r: Route)
    requires ' ' !in registered && ' ' !in asked && registered != asked
    requires RouteKey(asked, path) !in routes
    ensures Match(routes[RouteKey(registered, path) := r], asked, path) == MethodNotAllowed
  {
    var table := routes[RouteKey(registered, path) := r];
    if RouteKey(asked, path) in table {
      KeyInjective(asked, path, registered, path);
    }
    KeyParts(registered, path);
    assert RouteKey(registered, path) in table && KeyPath(RouteKey(registered, path)) == path;
  }

  /** A path no key ends in is answered 404, whatever the method. */
  lemma UnknownPathIsNotFound(routes: map<string, Route>, httpMethod: string, path: string)
    requires ' ' !in httpMethod
    requires forall k :: k in routes ==> KeyPath(k) != path
    ensures Match(routes, httpMethod, path) == NotFound
  {
    KeyParts(httpMethod, path);
  }

  /**
   * Dispatch on a router whose subtree pattern "/" may hold another
   * router's table: a "/" pattern matches every method and path, so any
   * request without an exact route goes to the mounted router, which
   * answers it with its own routes, 405 or 404.
   */
  function Resolve(top: map<string, Route>, mounted: Option<map<string, Route>>, httpMethod: string, path: string): (r: MatchResult)
    ensures RouteKey(httpMethod, path) in top ==> r == Found(top[RouteKey(httpMethod, path)])
    ensures RouteKey(httpMethod, path) !in top && mounted.Some? ==> r == Match(mounted.value, httpMethod, path)
    ensures mounted.None? ==> r == Match(top, httpMethod, path)
  {
    var here := Match(top, httpMethod, path);
    if here.Found? || mounted.None? then here else Match(mounted.value, httpMethod, path)
  }

  /**
   * Once a group router is mounted, a wrong method on a top-level path is
   * no longer answered 405: the group router gets the request and, not
   * knowing the path, answers 404.
   */
  lemma MountTurnsMethodNotAllowedIntoNotFound(top: map<string, Route>, group: map<string, Route>, asked: string, path: string)
    requires ' ' !in asked
    requires Match(top, asked, path) == MethodNotAllowed
    requires forall k :: k in group ==> KeyPath(k) != path
    ensures Resolve(top, Some(group), asked, path) == NotFound
  {
    UnknownPathIsNotFound(group, asked, path);
  }

  /** A router: `http.ServeMux` with its table of routes and what is mounted at "/". */
  class ServeMux {
    var routes: map<string, Route>
    var mount: Option<ServeMux>

    constructor ()
      ensures routes == map[] && mount == None
    {
      routes := map[];
      mount := None;
    }

    function Mounted(): set<ServeMux>
      reads this
    {
      if mount.Some? then {mount.value} else {}
    }

    /** The routes a request may reach through this router. */
    function Lookup(httpMethod: string, path: string): MatchResult
      reads this, Mounted()
    {
      Resolve(routes, if mount.Some? then Some(mount.value.routes) else None, httpMethod, path)
    }

    /** The context a request reaches through this router: its route's, or none for a 404 or 405. */
    function Target(httpMethod: string, path: string): set<WebContext>
      reads this, Mounted()
    {
      match Lookup(httpMethod, path)
      case Found(r) => {r.ctx}
      case _ => {}
    }

    /**
     * `Handle("/", sub)`: mount a router at "/". Registering "/" a second
     * time makes `http.ServeMux` panic; `ok` is false then and nothing changes.
     */
    method Handle(sub: ServeMux) returns (ok: bool)
      modifies this
      ensures ok == old(mount).None?
      ensures mount == (if ok then Some(sub) else old(mount)) && routes == old(routes)
    {
      if mount.Some? {
        return false;
      }
      mount := Some(sub);
      ok := true;
    }

    /** The contexts of the routes registered here. */
    function Contexts(): set<WebContext>
      reads this
    {
      set k | k in routes :: routes[k].ctx
    }

    /** `HandleFunc(pattern, handler)`; registering a key again replaces its route. */
    method HandleFunc(pattern: string, route: Route)
      modifies this
      ensures routes == old(routes)[pattern := route] && mount == old(mount)
    {
      routes := routes[pattern := route];
    }
  }
}

=== FILE: net.dfy ===
/**
 * The parts of `net/http` the toolkit touches, as values: a header map,
 * an inbound request and an outbound response writer.
 */
module Net {
  import opened Wrappers

  const StatusOK := 200
  const StatusBadRequest := 400
  const StatusUnauthorized := 401
  const StatusNotFound := 404
  const StatusMethodNotAllowed := 405
  const StatusInternalServerError := 500

  const MethodGet := "GET"
  const MethodPost := "POST"
  const MethodPut := "PUT"
  const MethodDelete := "DELETE"
  const MethodOptions := "OPTIONS"
  const MethodPatch := "PATCH"

  /** `http.Header`: each key holds a list of values. */
  type Header = map<string, seq<string>>

  /** `Header.Get`: the first value stored under `key`, or "" when there is none. */
  function HeaderGet(h: Header, key: string): string
  {
    if key in h && |h[key]| > 0 then h[key][0] else ""
  }

  /** `Header.Set`: replace every value of `key` by the single value `v`. */
  function HeaderSet(h: Header, key: string, v: string): Header
  {
    h[key := [v]]
  }

  /** `Header.Add`: append `v` to the values of `key`. */
  function HeaderAdd(h: Header, key: string, v: string): Header
  {
    h[key := (if key in h then h[key] else []) + [v]]
  }

  /** `key` has the same values, or is equally absent, in both maps. */
  predicate SameEntry(h1: Header, h2: Header, key: string)
  {
    (key in h1 <==> key in h2) && (key in h1 ==> h1[key] == h2[key])
  }

  /** `key` holds exactly the one value `v`, as after `Header.Set(key, v)`. */
  predicate HasOnly(h: Header, key: string, v: string)
  {
    key in h && h[key] == [v]
  }

  /**
   * `*http.Request` as far as the toolkit reads it: the method (`httpMethod`), host, URL path,
   * header, the already-parsed query (`URL.Query()`) and the body text.
   */
  datatype Request = Request(
    httpMethod: string,
    host: string,
    path: string,
    header: Header,
    query: map<string, seq<string>>,
    body: string)

  /**
   * `http.ResponseWriter` as a record: the header map, the status line once it
   * is written, the body written so far, and whether the peer has gone away
   * (every body write then fails).
   */
  datatype Writer = Writer(header: Header, status: Option<int>, body: string, broken: bool)
  {
    /** Set a response header. */
    function SetHeader(key: string, v: string): Writer
    {
      this.(header := HeaderSet(header, key, v))
    }

    /** `WriteHeader`: only the first call has an effect; a later one is superfluous. */
    function WriteHeader(code: int): Writer
    {
      if status.Some? then this else this.(status := Some(code))
    }

    /**
     * `Write`: a first write sends the implicit 200 status line; the bytes
     * reach the body unless the connection is broken, which is reported.
     */
    function Write(data: string): (r: WriteResult)
    {
      var w := WriteHeader(StatusOK);
      if broken then WriteResult(w, false) else WriteResult(w.(body := body + data), true)
    }

    /**
     * `io.Copy` from a reader holding `data`: an empty reader issues no write
     * at all, so it does not send the implicit status line either.
     */
    function Copy(data: string): (r: WriteResult)
    {
      if data == "" then WriteResult(this, true) else Write(data)
    }
  }

  datatype WriteResult = WriteResult(writer: Writer, ok: bool)

  /**
   * `http.Error(w, msg, code)`: drop Content-Length, mark the reply as plain
   * text, write the status line and the message followed by a newline.
   */
  function HttpError(w: Writer, msg: string, code: int): (r: Writer)
    ensures r.status == if w.status.Some? then w.status else Some(code)
    ensures r.body == if w.broken then w.body else w.body + msg + "\n"
    ensures r.broken == w.broken
    ensures "Content-Length" !in r.header
    ensures HasOnly(r.header, "Content-Type", "text/plain; charset=utf-8")
    ensures HasOnly(r.header, "X-Content-Type-Options", "nosniff")
    ensures forall k :: k != "Content-Length" && k != "Content-Type" && k != "X-Content-Type-Options" ==>
              SameEntry(w.header, r.header, k)
  {
    var h := HeaderSet(HeaderSet(w.header - {"Content-Length"}, "Content-Type", "text/plain; charset=utf-8"),
                       "X-Content-Type-Options", "nosniff");
    w.(header := h).WriteHeader(code).Write(msg + "\n").writer
  }

  /** A writer on which nothing has been written yet. */
  const FreshWriter := Writer(map[], None, "", false)
}

=== FILE: scenarios.dfy ===
/**
 * The scenarios of gweb_test.go, built from a new server with a response
 * recorder (a fresh writer) and driven through `WebTest`, plus one for a
 * JWT-protected route. Each states the response the scenario expects.
 */
module Scenarios {
  import opened Wrappers
  import opened Net
  import opened WebErrors
  import opened Text
  import opened Context
  import opened Middlewares
  import opened Mux
  import opened Web
  import opened Group

  /** The handlers of the tests: `ctx.Status(200).SendString(text)`, returning nil. */
  function Reply(text: string, s: CtxState): Step
  {
    Step(s.Status(StatusOK).SendString(text, []).state, None)
  }

  function HelloWorld(s: CtxState): Step
  {
    Reply("Hello, world!", s)
  }

  function Ok(s: CtxState): Step
  {
    Reply("OK", s)
  }

  /** `http.NewRequest(m, path, nil)`: no host, header, query or body. */
  function NewRequest(httpMethod: string, path: string): Request
  {
    Request(httpMethod, "", path, map[], map[], "")
  }

  /** The encoding of the test's `User{Name: "David", Age: 30}`. */
  const UserJson := "{\"name\":\"David\",\"age\":30}"

  /** `Reply(text)` on a context with an empty, working writer. */
  lemma ReplyWrites(c: CtxState, text: string)
    requires text != "" && c.writer.body == "" && !c.writer.broken
    ensures Reply(text, c) ==
            Step(c.(writer := Writer(c.writer.header[ContentType := [TextPlain]],
                                     Some(if c.writer.status.Some? then c.writer.status.value else StatusOK),
                                     text, false),
                    replyStatus := StatusOK),
                 None)
  {
  }

  lemma TraceWithoutLogging(cfg: Settings, s: CtxState)
    requires !cfg.logging
    ensures ChainEvents(0) + CorsEvents(cfg) + [HandlerRan] + LogEvents(cfg, s) == CorsEvents(cfg) + [HandlerRan]
  {
    assert ChainEvents(0) == [];
  }

  /** A request served by a `Reply` route with no middlewares, on a context that has served nothing yet. */
  lemma ServeReply(cfg: Settings, handler: WebHandler, text: string, req: Request)
    requires text != "" && !cfg.logging
    requires forall s :: handler(s) == Reply(text, s)
    ensures var c := ApplyCors(cfg, StartState(FreshState, req, FreshWriter));
            var o := Serve(cfg, [], handler, FreshState, req, FreshWriter);
            o.trace == CorsEvents(cfg) + [HandlerRan] &&
            o.state.writer == Writer(c.writer.header[ContentType := [TextPlain]],
                                     Some(if c.writer.status.Some? then c.writer.status.value else StatusOK),
                                     text, false)
  {
    var st := StartState(FreshState, req, FreshWriter);
    assert RunChain([], st) == Passed(st);
    var c := ApplyCors(cfg, st);
    ReplyWrites(c, text);
    HandlerSuccessIsFinal(cfg, 0, handler, st);
    TraceWithoutLogging(cfg, handler(c).state);
  }

  /** With default CORS on, a `Reply` route's answer carries the three fixed CORS headers. */
  lemma DefaultCorsReply(cfg: Settings, handler: WebHandler, text: string, req: Request)
    requires cfg.defaultCors && !cfg.logging && text != "" && req.httpMethod != MethodOptions
    requires forall s :: handler(s) == Reply(text, s)
    ensures var h := Serve(cfg, [], handler, FreshState, req, FreshWriter).state.writer.header;
            HasOnly(h, AllowOrigin, "*") &&
            HasOnly(h, AllowMethods, DefaultAllowedMethods) &&
            HasOnly(h, AllowHeaders, DefaultAllowedHeaders)
  {
    var st := StartState(FreshState, req, FreshWriter);
    ServeReply(cfg, handler, text, req);
    CorsChoice(cfg, st);
    assert |ContentType| < |AllowOrigin| && |ContentType| < |AllowMethods| && |ContentType| < |AllowHeaders|;
  }

  /** The JSON handler of the tests: `ctx.Status(200).JSON(u)`, returning nil. */
  function GetUser(s: CtxState): Step
  {
    Step(s.Status(StatusOK).JSON(Some(Encodable(UserJson))).state, None)
  }

  /** A request served by the `GetUser` route with no middlewares and no CORS or logging. */
  lemma ServeGetUser(cfg: Settings, req: Request)
    requires cfg == Settings(false, false, None, None)
    ensures var o := Serve(cfg, [], GetUser, FreshState, req, FreshWriter);
            o.trace == [HandlerRan] &&
            o.state.writer == Writer(map[ContentType := [ApplicationJson]], Some(StatusOK), UserJson + "\n", false)
  {
    var st := StartState(FreshState, req, FreshWriter);
    assert RunChain([], st) == Passed(st);
    assert ApplyCors(cfg, st) == st;
    HandlerSuccessIsFinal(cfg, 0, GetUser, st);
    TraceWithoutLogging(cfg, GetUser(st).state);
  }

  /** A request without `Authorization` on a route whose only middleware is the JWT check. */
  lemma ServeJwtReject(cfg: Settings, chain: seq<Middleware>, handler: WebHandler, req: Request)
    requires |chain| == 1 && chain[0].Jwt?
    requires HeaderGet(req.header, Authorization) == ""
    ensures var o := Serve(cfg, chain, handler, FreshState, req, FreshWriter);
            o.trace == [MiddlewareRan(0)] &&
            o.state.writer == HttpError(FreshWriter, MsgInvalidToken, StatusUnauthorized) &&
            o.state.writer.status == Some(StatusUnauthorized) && o.state.writer.body == "Invalid Token\n"
  {
    var st := StartState(FreshState, req, FreshWriter);
    JwtMissingHeader(req.header, chain[0].secret, chain[0].parse);
    assert chain[..0] == [];
    assert RunChain(chain[..0], st) == Passed(st);
    RunChainSnoc(chain, st, 0);
    assert chain[..1] == chain;
    assert RunChain(chain, st) == Failed(0, InvalidToken, st);
    assert ChainEvents(1) == [MiddlewareRan(0)];
  }

  /** The response header after the custom CORS step of `TestCustomCors` and a plain-text reply. */
  lemma CustomCorsHeaders(cfg: Settings, req: Request)
    requires cfg == Settings(false, false, Some(["Content-Type", "Authorization"]), None)
    requires req.httpMethod == MethodGet
    ensures var c := ApplyCors(cfg, StartState(FreshState, req, FreshWriter));
            var h := c.writer.header[ContentType := [TextPlain]];
            c.writer.status == None &&
            HasOnly(h, AllowOrigin, "*") && HasOnly(h, AllowHeaders, "Content-Type Authorization") && AllowMethods !in h
  {
    assert Join(["Content-Type", "Authorization"]) == "Content-Type Authorization";
  }

  /** `WebTest` on a request whose route `r` has not served anything yet. */
  method Fetch(web: Web, ghost r: Route, req: Request) returns (resp: Writer, trace: seq<Event>)
    requires web.router.Lookup(req.httpMethod, req.path) == Found(r)
    requires r.ctx.State() == FreshState
    modifies r.ctx
    ensures var o := Serve(web.Config(), r.chain, r.handler, FreshState, req, FreshWriter);
            resp == o.state.writer && trace == o.trace
  {
    resp, trace := web.WebTest(req, FreshWriter);
  }

  method TestGet() returns (resp: Writer, trace: seq<Event>)
    ensures resp.status == Some(StatusOK) && resp.body == "Hello, world!"
    ensures HeaderGet(resp.header, ContentType) == TextPlain
    ensures trace == [HandlerRan]
  {
    var web := new Web();
    assert HasPrefix("/world", "/");
    var err := web.Get("/world", HelloWorld);
    ghost var r := web.router.routes[RouteKey(MethodGet, "/world")];
    assert web.router.Lookup(MethodGet, "/world") == Found(r);
    ServeReply(web.Config(), HelloWorld, "Hello, world!", NewRequest(MethodGet, "/world"));
    resp, trace := Fetch(web, r, NewRequest(MethodGet, "/world"));
  }

  method TestPost() returns (resp: Writer, trace: seq<Event>)
    ensures resp.status == Some(StatusOK) && resp.body == "OK"
    ensures trace == [HandlerRan]
  {
    var web := new Web();
    assert HasPrefix("/save", "/");
    var err := web.Post("/save", Ok);
    ghost var r := web.router.routes[RouteKey(MethodPost, "/save")];
    assert web.router.Lookup(MethodPost, "/save") == Found(r);
    ServeReply(web.Config(), Ok, "OK", NewRequest(MethodPost, "/save"));
    resp, trace := Fetch(web, r, NewRequest(MethodPost, "/save"));
  }

  /** Method names are case-sensitive: "Get" is not "POST", and the path is known. */
  method TestWrongMethod() returns (resp: Writer, trace: seq<Event>)
    ensures resp.status == Some(StatusMethodNotAllowed) && resp.body == "Method Not Allowed\n"
    ensures trace == []
  {
    var web := new Web();
    assert HasPrefix("/save", "/");
    var err := web.Post("/save", Ok);
    ghost var r := web.router.routes[RouteKey(MethodPost, "/save")];
    OtherMethodIsNotAllowed(map[], MethodPost, "Get", "/save", r);
    assert web.router.Lookup("Get", "/save") == MethodNotAllowed;
    resp, trace := web.WebTest(NewRequest("Get", "/save"), FreshWriter);
  }

  method TestWrongRoute() returns (resp: Writer, trace: seq<Event>)
    ensures resp.status == Some(StatusNotFound) && resp.body == "404 page not found\n"
    ensures trace == []
  {
    var web := new Web();
    assert HasPrefix("/save", "/");
    var err := web.Post("/save", Ok);
    KeyParts(MethodPost, "/save");
    assert web.router.routes.Keys == {RouteKey(MethodPost, "/save")};
    UnknownPathIsNotFound(web.router.routes, "Post", "/save1");
    assert web.router.Lookup("Post", "/save1") == NotFound;
    resp, trace := web.WebTest(NewRequest("Post", "/save1"), FreshWriter);
  }

  method TestJSON() returns (resp: Writer, trace: seq<Event>)
    ensures resp.status == Some(StatusOK) && resp.body == UserJson + "\n"
    ensures HeaderGet(resp.header, ContentType) == ApplicationJson
    ensures trace == [HandlerRan]
  {
    var web := new Web();
    assert HasPrefix("/getuser", "/");
    var err := web.Post("/getuser", GetUser);
    ghost var r := web.router.routes[RouteKey(MethodPost, "/getuser")];
    assert web.router.Lookup(MethodPost, "/getuser") == Found(r);
    ServeGetUser(web.Config(), NewRequest(MethodPost, "/getuser"));
    resp, trace := Fetch(web, r, NewRequest(MethodPost, "/getuser"));
  }

  method TestCors() returns (resp: Writer, trace: seq<Event>)
    ensures resp.status == Some(StatusOK) && resp.body == "Hello, world!"
    ensures HasOnly(resp.header, AllowOrigin, "*")
    ensures HasOnly(resp.header, AllowMethods, DefaultAllowedMethods)
    ensures HasOnly(resp.header, AllowHeaders, DefaultAllowedHeaders)
    ensures trace == [CorsApplied, HandlerRan]
  {
    var web := new Web();
    web := web.WithDefaultCors();
    assert HasPrefix("/world", "/");
    var err := web.Get("/world", HelloWorld);
    ghost var r := web.router.routes[RouteKey(MethodGet, "/world")];
    assert web.router.Lookup(MethodGet, "/world") == Found(r);
    ServeReply(web.Config(), HelloWorld, "Hello, world!", NewRequest(MethodGet, "/world"));
    DefaultCorsReply(web.Config(), HelloWorld, "Hello, world!", NewRequest(MethodGet, "/world"));
    resp, trace := Fetch(web, r, NewRequest(MethodGet, "/world"));
  }

  /**
   * `WithCustomCors(["GET"], ["Content-Type", "Authorization"])`: the
   * method list ends up as the allowed headers, and no allowed methods are
   * written.
   */
  method TestCustomCors() returns (resp: Writer, trace: seq<Event>)
    ensures resp.status == Some(StatusOK) && resp.body == "Hello, world!"
    ensures HasOnly(resp.header, AllowOrigin, "*")
    ensures HasOnly(resp.header, AllowHeaders, "Content-Type Authorization")
    ensures AllowMethods !in resp.header
    ensures trace == [CorsApplied, HandlerRan]
  {
    var web := new Web();
    web := web.WithCustomCors(Some([MethodGet]), Some(["Content-Type", "Authorization"]));
    assert HasPrefix("/world", "/");
    var err := web.Get("/world", HelloWorld);
    ghost var r := web.router.routes[RouteKey(MethodGet, "/world")];
    assert web.router.Lookup(MethodGet, "/world") == Found(r);
    ServeReply(web.Config(), HelloWorld, "Hello, world!", NewRequest(MethodGet, "/world"));
    CustomCorsHeaders(web.Config(), NewRequest(MethodGet, "/world"));
    resp, trace := Fetch(web, r, NewRequest(MethodGet, "/world"));
  }

  /** A server with no routes of its own and one group route reaches that route. */
  lemma GroupRouteFound(group: map<string, Route>, r: Route)
    requires group == map[RouteKey(MethodGet, "/v1/world") := r]
    ensures Resolve(map[], Some(group), MethodGet, "/v1/world") == Found(r)
  {
    RegisteredRouteIsFound(map[], MethodGet, "/v1/world", r);
  }

  /** A group route is reached through the group router mounted at "/". */
  method TestGroupMiddleware() returns (resp: Writer, trace: seq<Event>)
    ensures resp.status == Some(StatusOK) && resp.body == "OK"
    ensures trace == [HandlerRan]
  {
    var web := new Web();
    assert HasPrefix("/v1", "/") && HasPrefix("/world", "/");
    var v1 := NewGroup(web, "/v1");
    var g := v1.value;
    var err := g.Get("/world", Ok);
    assert "/v1" + "/world" == "/v1/world";
    ghost var r := g.router.routes[RouteKey(MethodGet, "/v1/world")];
    assert g.router.routes == map[RouteKey(MethodGet, "/v1/world") := r];
    GroupRouteFound(g.router.routes, r);
    assert r.chain == [] && r.handler == Ok;
    ServeReply(web.Config(), Ok, "OK", NewRequest(MethodGet, "/v1/world"));
    resp, trace := Fetch(web, r, NewRequest(MethodGet, "/v1/world"));
  }

  /** A global JWT middleware turns away a request without `Authorization` with 401, before the handler. */
  method TestJwtWithoutToken(parse: JwtParser) returns (resp: Writer, trace: seq<Event>)
    ensures resp.status == Some(StatusUnauthorized) && resp.body == "Invalid Token\n"
    ensures trace == [MiddlewareRan(0)]
  {
    var web := new Web();
    web.Use(MiddlewareJwt("secret", parse));
    assert HasPrefix("/world", "/");
    var err := web.Get("/world", HelloWorld);
    ghost var r := web.router.routes[RouteKey(MethodGet, "/world")];
    assert web.router.Lookup(MethodGet, "/world") == Found(r);
    assert r.chain == [MiddlewareJwt("secret", parse)] && r.handler == HelloWorld;
    ServeJwtReject(web.Config(), r.chain, HelloWorld, NewRequest(MethodGet, "/world"));
    resp, trace := Fetch(web, r, NewRequest(MethodGet, "/world"));
  }
}

=== FILE: text.dfy ===
/**
 * The string helpers the toolkit relies on: `strings.HasPrefix`,
 * `strings.Split` on a single space, and the space-join that the custom
 * CORS middleware writes into a byte buffer.
 */
module Text {

  /** `strings.HasPrefix(s, prefix)`. */
  predicate HasPrefix(s: string, prefix: string)
    ensures HasPrefix(s, prefix) <==> |prefix| <= |s| && s == prefix + s[|prefix|..]
  {
    |prefix| <= |s| && s[..|prefix|] == prefix
  }

  /** `strings.Split(s, " ")`: cut at every space; an empty input gives one empty piece. */
  function Split(s: string): (parts: seq<string>)
    ensures |parts| >= 1
  {
    if s == [] then [""]
    else
      var rest := Split(s[1..]);
      if s[0] == ' ' then [""] + rest
      else [[s[0]] + rest[0]] + rest[1..]
  }

  /** No item holds a space. */
  predicate SpaceFree(items: seq<string>)
  {
    forall i :: 0 <= i < |items| ==> ' ' !in items[i]
  }

  /** The items written one after the other with a single space between neighbours. */
  function Join(items: seq<string>): string
  {
    if |items| == 0 then ""
    else if |items| == 1 then items[0]
    else items[0] + " " + Join(items[1..])
  }

  /** Joining space-free items puts exactly one space between neighbours and none elsewhere. */
  lemma {:induction false} JoinSpaces(items: seq<string>)
    requires |items| >= 1 && SpaceFree(items)
    ensures Spaces(Join(items)) == |items| - 1
  {
    SpacesZero(items[0]);
    if |items| > 1 {
      assert SpaceFree(items[1..]);
      JoinSpaces(items[1..]);
      SpacesConcat(items[0], " ");
      SpacesConcat(items[0] + " ", Join(items[1..]));
    }
  }

  /** The number of spaces in `s`. */
  function Spaces(s: string): nat
  {
    if s == [] then 0 else (if s[0] == ' ' then 1 else 0) + Spaces(s[1..])
  }

  /** Splitting gives one piece more than there are spaces. */
  lemma {:induction false} SplitCount(s: string)
    ensures |Split(s)| == Spaces(s) + 1
  {
    if s != [] {
      SplitCount(s[1..]);
    }
  }

  /** Spaces add up over concatenation. */
  lemma {:induction false} SpacesConcat(a: string, b: string)
    ensures Spaces(a + b) == Spaces(a) + Spaces(b)
  {
    if a != [] {
      assert (a + b)[1..] == a[1..] + b;
      SpacesConcat(a[1..], b);
    } else {
      assert a + b == b;
    }
  }

  lemma {:induction false} SpacesZero(s: string)
    ensures Spaces(s) == 0 <==> ' ' !in s
  {
    if s != [] {
      SpacesZero(s[1..]);
      assert s == [s[0]] + s[1..];
    }
  }

  /** `len(strings.Split(s, " ")) >= 2` exactly when `s` holds a space. */
  lemma SplitHasTwoParts(s: string)
    ensures |Split(s)| >= 2 <==> ' ' in s
  {
    SplitCount(s);
    SpacesZero(s);
  }

  /** No piece of a split contains the separator. */
  lemma {:induction false} SplitPartsHaveNoSpace(s: string)
    ensures forall i :: 0 <= i < |Split(s)| ==> ' ' !in Split(s)[i]
  {
    if s != [] {
      SplitPartsHaveNoSpace(s[1..]);
    }
  }

  lemma JoinCons(x: string, rest: seq<string>)
    requires |rest| >= 1
    ensures Join([x] + rest) == x + " " + Join(rest)
  {
    assert ([x] + rest)[1..] == rest;
  }

  /** Joining the pieces of a split gives back the original string. */
  lemma {:induction false} JoinSplit(s: string)
    ensures Join(Split(s)) == s
  {
    if s != [] {
      var rest := Split(s[1..]);
      JoinSplit(s[1..]);
      if s[0] == ' ' {
        JoinCons("", rest);
      } else if |rest| == 1 {
        assert Split(s) == [[s[0]] + rest[0]];
      } else {
        assert rest == [rest[0]] + rest[1..];
        JoinCons(rest[0], rest[1..]);
        JoinCons([s[0]] + rest[0], rest[1..]);
      }
    }
  }

  /** Splitting a join of space-free items gives back the items, in order. */
  lemma {:induction false} SplitJoin(items: seq<string>)
    requires |items| >= 1
    requires forall i :: 0 <= i < |items| ==> ' ' !in items[i]
    ensures Split(Join(items)) == items
  {
    if |items| == 1 {
      SplitWord(items[0]);
    } else {
      SplitJoin(items[1..]);
      SplitAppend(items[0], Join(items[1..]));
    }
  }

  /** A space-free string splits into itself. */
  lemma {:induction false} SplitWord(w: string)
    requires ' ' !in w
    ensures Split(w) == [w]
  {
    if w != [] {
      assert w == [w[0]] + w[1..];
      SplitWord(w[1..]);
    }
  }

  /** A space-free word followed by a space and a tail splits into the word and the tail's pieces. */
  lemma {:induction false} SplitAppend(w: string, tail: string)
    requires ' ' !in w
    ensures Split(w + " " + tail) == [w] + Split(tail)
  {
    if w == [] {
      assert w + " " + tail == [' '] + tail;
    } else {
      assert (w + " " + tail)[1..] == w[1..] + " " + tail;
      SplitAppend(w[1..], tail);
      assert w == [w[0]] + w[1..];
    }
  }

  /** `Join(items + [x])`: the loop that writes items left to right. */
  lemma {:induction false} JoinSnoc(items: seq<string>, x: string)
    ensures Join(items + [x]) == if items == [] then x else Join(items) + " " + x
  {
    if |items| == 1 {
      assert items + [x] == [items[0]] + [x];
    } else if |items| > 1 {
      assert (items + [x])[1..] == items[1..] + [x];
      JoinSnoc(items[1..], x);
    }
  }

  /**
   * The buffer loop of the custom CORS middleware: each item is written,
   * followed by a space unless it is the last one.
   */
  method JoinWithSpaces(items: seq<string>) returns (buf: string)
    ensures buf == Join(items)
  {
    buf := "";
    var total := |items|;
    for index := 0 to total
      invariant buf == Join(items[..index]) + (if 0 < index < total then " " else "")
    {
      ghost var prefix := items[..index];
      JoinSnoc(prefix, items[index]);
      assert items[..index + 1] == prefix + [items[index]];
      assert buf == if prefix == [] then "" else Join(prefix) + " ";
      buf := buf + items[index];
      assert buf == Join(items[..index + 1]);
      if index < total - 1 {
        buf := buf + " ";
      }
    }
    assert items[..total] == items;
  }
}

=== FILE: web.dfy ===
/**
 * web.go: the `Web` server object (its settings, global middlewares and
 * top-level router), route registration, and the per-request dispatch that
 * `addRoutes` installs for every route.
 */
module Web {
  import opened Wrappers
  import opened Net
  import opened WebErrors
  import opened Text
  import opened Context
  import opened Middlewares
  import opened Mux

  /** The settings the dispatcher reads from the `Web` object at request time. */
  datatype Settings = Settings(
    logging: bool,
    defaultCors: bool,
    customHeader: Option<seq<string>>,
    custMethods: Option<seq<string>>)

  /** What a request's dispatch did, in order. */
  datatype Event =
    | MiddlewareRan(index: nat)
    | CorsApplied
    | HandlerRan
    | RequestLogged(status: int, host: string, httpMethod: string, path: string)

  datatype Outcome = Outcome(state: CtxState, trace: seq<Event>)

  /** The chain either lets the request through, or the middleware at `index` stopped it with `err`. */
  datatype ChainResult = Passed(state: CtxState) | Failed(index: nat, err: WebError, state: CtxState)

  /** Go's `copy(dst, src)`: the first `min(len(dst), len(src))` entries of `dst` become those of `src`. */
  function GoCopy<T>(dst: seq<T>, src: seq<T>): (r: seq<T>)
    ensures |r| == |dst|
    ensures forall i :: 0 <= i < |r| && i < |src| ==> r[i] == src[i]
    ensures forall i :: |src| <= i < |r| ==> r[i] == dst[i]
  {
    if |src| >= |dst| then src[..|dst|] else src + dst[|src|..]
  }

  /**
   * A group route's chain is the global list overwritten by the group's:
   * when the group has at least as many middlewares, no global middleware
   * runs and the group's list is cut to the global list's length.
   */
  lemma GroupChainOverwritesGlobal(global: seq<Middleware>, group: seq<Middleware>)
    requires |global| <= |group|
    ensures GoCopy(global, group) == group[..|global|]
  {
  }

  /** The middlewares of a chain run in order, each on the state the previous one left. */
  function RunChain(chain: seq<Middleware>, s: CtxState): (r: ChainResult)
    ensures r.Failed? ==> r.index < |chain|
    decreases |chain|
  {
    if chain == [] then Passed(s)
    else
      var n := |chain| - 1;
      match RunChain(chain[..n], s)
      case Failed(i, e, st) => Failed(i, e, st)
      case Passed(st) =>
        var step := Apply(chain[n], st);
        if step.err.Some? then Failed(n, step.err.value, step.state) else Passed(step.state)
  }

  /** Running one more middleware after a prefix that let the request through. */
  lemma RunChainSnoc(chain: seq<Middleware>, s: CtxState, i: nat)
    requires i < |chain|
    requires RunChain(chain[..i], s).Passed?
    ensures var st := Apply(chain[i], RunChain(chain[..i], s).state);
            RunChain(chain[..i + 1], s) == if st.err.Some? then Failed(i, st.err.value, st.state) else Passed(st.state)
  {
    assert chain[..i + 1][..i] == chain[..i];
  }

  /** One step of `RunChain`: a failure of all but the last middleware is the chain's result. */
  lemma FailedPrefix(chain: seq<Middleware>, s: CtxState)
    requires |chain| > 0 && RunChain(chain[..|chain| - 1], s).Failed?
    ensures RunChain(chain, s) == RunChain(chain[..|chain| - 1], s)
  {
  }

  /** Once a prefix of the chain has failed, running more of it changes nothing. */
  lemma {:induction false} FailurePersists(chain: seq<Middleware>, s: CtxState, j: nat)
    requires j <= |chain|
    requires RunChain(chain[..j], s).Failed?
    ensures RunChain(chain, s) == RunChain(chain[..j], s)
    decreases |chain|
  {
    if j < |chain| {
      var n := |chain| - 1;
      assert chain[..n][..j] == chain[..j];
      FailurePersists(chain[..n], s, j);
      FailedPrefix(chain, s);
    } else {
      assert chain[..j] == chain;
    }
  }

  /**
   * A chain stops at its first error: every middleware before the failing
   * one let the request through, and the failing one reported the error.
   */
  lemma {:induction false} ChainStopsAtFirstError(chain: seq<Middleware>, s: CtxState)
    requires RunChain(chain, s).Failed?
    ensures var f := RunChain(chain, s);
            RunChain(chain[..f.index], s).Passed? &&
            Apply(chain[f.index], RunChain(chain[..f.index], s).state) == Step(f.state, Some(f.err))
    ensures forall j :: 0 <= j < RunChain(chain, s).index ==> RunChain(chain[..j], s).Passed?
    decreases |chain|
  {
    var n := |chain| - 1;
    var f := RunChain(chain, s);
    if RunChain(chain[..n], s).Failed? {
      ChainStopsAtFirstError(chain[..n], s);
      assert chain[..n][..f.index] == chain[..f.index];
      forall j | 0 <= j < f.index ensures RunChain(chain[..j], s).Passed? {
        assert chain[..n][..j] == chain[..j];
      }
    } else {
      assert f.index == n;
      forall j | 0 <= j < n ensures RunChain(chain[..j], s).Passed? {
        if RunChain(chain[..j], s).Failed? {
          assert chain[..n][..j] == chain[..j];
          FailurePersists(chain[..n], s, j);
        }
      }
    }
  }

  /** A chain that lets the request through ran every middleware without error. */
  lemma {:induction false} ChainPassedAll(chain: seq<Middleware>, s: CtxState, j: nat)
    requires RunChain(chain, s).Passed?
    requires j < |chain|
    ensures RunChain(chain[..j], s).Passed?
    ensures Apply(chain[j], RunChain(chain[..j], s).state).err.None?
  {
    if RunChain(chain[..j + 1], s).Failed? {
      FailurePersists(chain, s, j + 1);
    }
    assert chain[..j + 1][..j] == chain[..j];
  }

  /** `MiddlewareRan(0), ..., MiddlewareRan(n - 1)`. */
  function ChainEvents(n: nat): (t: seq<Event>)
    ensures |t| == n
    ensures forall i :: 0 <= i < n ==> t[i] == MiddlewareRan(i)
  {
    if n == 0 then [] else ChainEvents(n - 1) + [MiddlewareRan(n - 1)]
  }

  /** The status a failing middleware's error is answered with. */
  function MiddlewareErrorStatus(e: WebError): (status: int)
    ensures status == StatusUnauthorized <==> e.IsTokenError()
    ensures status == StatusBadRequest <==> !e.IsTokenError()
  {
    if e.IsTokenError() then StatusUnauthorized else StatusBadRequest
  }

  /** Every error the JWT middleware reports is answered 401. */
  lemma JwtErrorsAreUnauthorized(secret: string, parse: JwtParser, s: CtxState)
    requires Apply(Jwt(secret, parse), s).err.Some?
    ensures MiddlewareErrorStatus(Apply(Jwt(secret, parse), s).err.value) == StatusUnauthorized
  {
  }

  predicate CorsEnabled(cfg: Settings)
  {
    cfg.defaultCors || cfg.custMethods.Some? || cfg.customHeader.Some?
  }

  /** Default CORS if it is on; else custom CORS if either custom list is non-nil; else nothing. */
  function ApplyCors(cfg: Settings, s: CtxState): (r: CtxState)
    ensures r == s.(writer := r.writer)
    ensures r.writer.body == s.writer.body && r.writer.broken == s.writer.broken
    ensures !CorsEnabled(cfg) ==> r == s
    ensures CorsEnabled(cfg) ==> HasOnly(r.writer.header, AllowOrigin, "*")
    ensures CorsEnabled(cfg) && s.request.httpMethod == MethodOptions ==> r.writer.status.Some?
    ensures CorsEnabled(cfg) && s.request.httpMethod == MethodOptions ==> r.writer.status == s.writer.WriteHeader(StatusOK).status
    ensures s.request.httpMethod != MethodOptions ==> r.writer.status == s.writer.status
  {
    if cfg.defaultCors then CorsDefaultApplied(s)
    else if cfg.custMethods.Some? || cfg.customHeader.Some? then CorsCustomApplied(s, cfg.customHeader, cfg.custMethods)
    else s
  }

  /** Default CORS takes precedence; custom CORS applies only when default CORS is off. */
  lemma CorsChoice(cfg: Settings, s: CtxState)
    ensures cfg.defaultCors ==> ApplyCors(cfg, s) == CorsDefaultApplied(s)
    ensures !cfg.defaultCors && CorsEnabled(cfg) ==>
              ApplyCors(cfg, s) == CorsCustomApplied(s, cfg.customHeader, cfg.custMethods)
  {
  }

  /**
   * `custMethods` is never assigned (`WithCustomCors` stores both lists in
   * `customHeader`), so unless default CORS is on, no request ever gets an
   * `Access-Control-Allow-Methods` header from the CORS step.
   */
  lemma CustomCorsNeverAllowsMethods(cfg: Settings, s: CtxState)
    requires !cfg.defaultCors && cfg.custMethods.None?
    ensures SameEntry(s.writer.header, ApplyCors(cfg, s).writer.header, AllowMethods)
    ensures cfg.customHeader.Some? ==> HasOnly(ApplyCors(cfg, s).writer.header, AllowOrigin, "*")
  {
  }

  /** After the handler: an unset `ReplyStatus` becomes 200 and 200 is written. */
  function Finalise(s: CtxState): (r: CtxState)
    ensures r.replyStatus == if s.replyStatus == 0 then StatusOK else s.replyStatus
    ensures s.replyStatus == 0 ==> r.writer.status.Some?
    ensures r.writer.header == s.writer.header && r.writer.body == s.writer.body
    ensures r.request == s.request && r.query == s.query
  {
    if s.replyStatus == 0 then s.(replyStatus := StatusOK, writer := s.writer.WriteHeader(StatusOK)) else s
  }

  function CorsEvents(cfg: Settings): seq<Event>
  {
    if CorsEnabled(cfg) then [CorsApplied] else []
  }

  function LogEvents(cfg: Settings, s: CtxState): seq<Event>
  {
    if cfg.logging then [RequestLogged(s.replyStatus, s.request.host, s.request.httpMethod, s.request.path)] else []
  }

  /** The context as a request finds it: the new request and writer, the rest left from earlier requests. */
  function StartState(prev: CtxState, req: Request, wr: Writer): CtxState
  {
    prev.(request := req, writer := wr)
  }

  /**
   * The handler `addRoutes` installs, on one request: middlewares, then
   * CORS, then the handler (its error sent with `SendError`), then the
   * default status, then the log line.
   */
  function Serve(cfg: Settings, chain: seq<Middleware>, handler: WebHandler, prev: CtxState, req: Request, wr: Writer): (o: Outcome)
    ensures var c := RunChain(chain, StartState(prev, req, wr));
            c.Failed? ==> o.trace == ChainEvents(c.index + 1) && o.state.writer.status.Some?
    ensures RunChain(chain, StartState(prev, req, wr)).Passed? ==> o.state.replyStatus != 0 && HandlerRan in o.trace
  {
    var c := RunChain(chain, StartState(prev, req, wr));
    if c.Passed? then AfterChain(cfg, |chain|, handler, c.state)
    else Outcome(c.state.(writer := HttpError(c.state.writer, c.err.Message(), MiddlewareErrorStatus(c.err))), ChainEvents(c.index + 1))
  }

  /** The rest of a request once all `n` middlewares let it through. */
  function AfterChain(cfg: Settings, n: nat, handler: WebHandler, st: CtxState): (o: Outcome)
    ensures o.state.replyStatus != 0
    ensures handler(ApplyCors(cfg, st)).err.Some? ==> o.state.replyStatus == StatusInternalServerError
    ensures HandlerRan in o.trace
  {
    var s3 := Settle(handler(ApplyCors(cfg, st)));
    Outcome(s3, ChainEvents(n) + CorsEvents(cfg) + [HandlerRan] + LogEvents(cfg, s3))
  }

  /** What the handler leaves: its error, if any, sent with `SendError`, then the default status. */
  function Settle(h: Step): (s: CtxState)
    ensures s.replyStatus != 0
    ensures h.err.Some? ==> s.replyStatus == StatusInternalServerError
  {
    Finalise(if h.err.Some? then h.state.SendError(h.err.value) else h.state)
  }

  function HandlerCount(t: seq<Event>): nat
  {
    if t == [] then 0 else (if t[0] == HandlerRan then 1 else 0) + HandlerCount(t[1..])
  }

  function LogCount(t: seq<Event>): nat
  {
    if t == [] then 0 else (if t[0].RequestLogged? then 1 else 0) + LogCount(t[1..])
  }

  lemma {:induction false} CountsOfConcat(a: seq<Event>, b: seq<Event>)
    ensures HandlerCount(a + b) == HandlerCount(a) + HandlerCount(b)
    ensures LogCount(a + b) == LogCount(a) + LogCount(b)
  {
    if a == [] {
      assert a + b == b;
    } else {
      assert (a + b)[1..] == a[1..] + b;
      CountsOfConcat(a[1..], b);
    }
  }

  lemma {:induction false} ChainEventsCounts(n: nat)
    ensures HandlerCount(ChainEvents(n)) == 0 && LogCount(ChainEvents(n)) == 0
    ensures CorsApplied !in ChainEvents(n)
  {
    if n > 0 {
      ChainEventsCounts(n - 1);
      CountsOfConcat(ChainEvents(n - 1), [MiddlewareRan(n - 1)]);
    }
  }

  /**
   * When a middleware fails: only the middlewares up to and including it
   * ran, neither CORS nor the handler nor the logger did, and the error was
   * answered 401 (token errors) or 400 (anything else). Neither the handler
   * nor any of the server's settings make any difference.
   */
  lemma MiddlewareFailureStopsDispatch(cfg: Settings, chain: seq<Middleware>, handler: WebHandler,
                                       prev: CtxState, req: Request, wr: Writer,
                                       otherCfg: Settings, otherHandler: WebHandler)
    requires RunChain(chain, StartState(prev, req, wr)).Failed?
    ensures var f := RunChain(chain, StartState(prev, req, wr));
            var o := Serve(cfg, chain, handler, prev, req, wr);
            o.trace == ChainEvents(f.index + 1) &&
            HandlerCount(o.trace) == 0 && LogCount(o.trace) == 0 && CorsApplied !in o.trace &&
            o.state.writer == HttpError(f.state.writer, f.err.Message(), MiddlewareErrorStatus(f.err)) &&
            o == Serve(otherCfg, chain, otherHandler, prev, req, wr)
  {
    ChainEventsCounts(RunChain(chain, StartState(prev, req, wr)).index + 1);
  }

  /** The trace of a request all `n` middlewares let through, as `AfterChain` builds it. */
  lemma {:induction false} PassedTrace(n: nat, cfg: Settings, s: CtxState)
    ensures var t := ChainEvents(n) + CorsEvents(cfg) + [HandlerRan] + LogEvents(cfg, s);
            var c := if CorsEnabled(cfg) then 1 else 0;
            |t| > n + c &&
            (forall j :: 0 <= j < n ==> t[j] == MiddlewareRan(j)) &&
            (CorsEnabled(cfg) ==> t[n] == CorsApplied) &&
            t[n + c] == HandlerRan &&
            HandlerCount(t) == 1 &&
            LogCount(t) == (if cfg.logging then 1 else 0)
  {
    var pre := ChainEvents(n) + CorsEvents(cfg);
    ChainEventsCounts(n);
    CountsOfConcat(ChainEvents(n), CorsEvents(cfg));
    CountsOfConcat(pre, [HandlerRan]);
    CountsOfConcat(pre + [HandlerRan], LogEvents(cfg, s));
    assert HandlerCount(CorsEvents(cfg)) == 0 && LogCount(CorsEvents(cfg)) == 0;
    assert HandlerCount([HandlerRan]) == 1 && LogCount([HandlerRan]) == 0;
    assert HandlerCount(LogEvents(cfg, s)) == 0;
  }

  /**
   * When every middleware lets the request through: they ran in order,
   * then CORS (only if enabled), then the handler exactly once, then the
   * logger exactly once if logging is on.
   */
  lemma DispatchOrder(cfg: Settings, chain: seq<Middleware>, handler: WebHandler,
                      prev: CtxState, req: Request, wr: Writer)
    requires RunChain(chain, StartState(prev, req, wr)).Passed?
    ensures var o := Serve(cfg, chain, handler, prev, req, wr);
            var c := if CorsEnabled(cfg) then 1 else 0;
            |o.trace| > |chain| + c &&
            (forall j :: 0 <= j < |chain| ==> o.trace[j] == MiddlewareRan(j)) &&
            (CorsEnabled(cfg) ==> o.trace[|chain|] == CorsApplied) &&
            o.trace[|chain| + c] == HandlerRan &&
            HandlerCount(o.trace) == 1 &&
            LogCount(o.trace) == (if cfg.logging then 1 else 0)
  {
    PassedTrace(|chain|, cfg, Serve(cfg, chain, handler, prev, req, wr).state);
  }

  /** Whatever happens, a request is logged at most once. */
  lemma LoggedAtMostOnce(cfg: Settings, chain: seq<Middleware>, handler: WebHandler, prev: CtxState, req: Request, wr: Writer)
    ensures LogCount(Serve(cfg, chain, handler, prev, req, wr).trace) <= 1
  {
    if RunChain(chain, StartState(prev, req, wr)).Failed? {
      MiddlewareFailureStopsDispatch(cfg, chain, handler, prev, req, wr, cfg, handler);
    } else {
      DispatchOrder(cfg, chain, handler, prev, req, wr);
    }
  }

  /** With default CORS on, the custom lists play no part. */
  lemma DefaultCorsWins(cfg: Settings, chain: seq<Middleware>, handler: WebHandler, prev: CtxState, req: Request, wr: Writer,
                        headers: Option<seq<string>>, methods: Option<seq<string>>)
    requires cfg.defaultCors
    ensures Serve(cfg, chain, handler, prev, req, wr) ==
            Serve(cfg.(customHeader := headers, custMethods := methods), chain, handler, prev, req, wr)
  {
  }

  /** A handler that returns an error leaves status 500, with the message appended to the body. */
  lemma HandlerErrorIsInternalServerError(cfg: Settings, chain: seq<Middleware>, handler: WebHandler,
                                          prev: CtxState, req: Request, wr: Writer)
    requires RunChain(chain, StartState(prev, req, wr)).Passed?
    requires handler(ApplyCors(cfg, RunChain(chain, StartState(prev, req, wr)).state)).err.Some?
    ensures var h := handler(ApplyCors(cfg, RunChain(chain, StartState(prev, req, wr)).state));
            var o := Serve(cfg, chain, handler, prev, req, wr);
            o.state.replyStatus == StatusInternalServerError &&
            (!h.state.writer.broken ==> o.state.writer.body == h.state.writer.body + h.err.value.Message() + "\n")
  {
  }

  /**
   * A handler that returns nil after setting a status has the last word:
   * the context is left exactly as the handler left it.
   */
  lemma HandlerSuccessIsFinal(cfg: Settings, n: nat, handler: WebHandler, st: CtxState)
    requires handler(ApplyCors(cfg, st)).err.None?
    requires handler(ApplyCors(cfg, st)).state.replyStatus != 0
    ensures var h := handler(ApplyCors(cfg, st));
            AfterChain(cfg, n, handler, st) ==
            Outcome(h.state, ChainEvents(n) + CorsEvents(cfg) + [HandlerRan] + LogEvents(cfg, h.state))
  {
  }

  /**
   * A handler that returns nil without setting a status ends with status
   * 200, and 200 is written unless a status line went out already.
   */
  lemma UnsetStatusBecomesOK(cfg: Settings, chain: seq<Middleware>, handler: WebHandler,
                             prev: CtxState, req: Request, wr: Writer)
    requires RunChain(chain, StartState(prev, req, wr)).Passed?
    requires var h := handler(ApplyCors(cfg, RunChain(chain, StartState(prev, req, wr)).state));
             h.err.None? && h.state.replyStatus == 0
    ensures var h := handler(ApplyCors(cfg, RunChain(chain, StartState(prev, req, wr)).state));
            var o := Serve(cfg, chain, handler, prev, req, wr);
            o.state.replyStatus == StatusOK &&
            o.state.writer.status == (if h.state.writer.status.Some? then h.state.writer.status else Some(StatusOK))
  {
  }

  /** After a request that got past the middlewares, `ReplyStatus` is never left unset. */
  lemma ReplyStatusIsSet(cfg: Settings, chain: seq<Middleware>, handler: WebHandler, prev: CtxState, req: Request, wr: Writer)
    requires RunChain(chain, StartState(prev, req, wr)).Passed?
    ensures Serve(cfg, chain, handler, prev, req, wr).state.replyStatus != 0
  {
  }

  /**
   * A CORS preflight does not short-circuit: the 200 status line is
   * written before the handler runs, and the handler still runs.
   */
  lemma PreflightStillRunsHandler(cfg: Settings, chain: seq<Middleware>, handler: WebHandler,
                                  prev: CtxState, req: Request, wr: Writer)
    requires CorsEnabled(cfg)
    requires RunChain(chain, StartState(prev, req, wr)).Passed?
    requires RunChain(chain, StartState(prev, req, wr)).state.request.httpMethod == MethodOptions
    ensures ApplyCors(cfg, RunChain(chain, StartState(prev, req, wr)).state).writer.status.Some?
    ensures HandlerRan in Serve(cfg, chain, handler, prev, req, wr).trace
  {
    DispatchOrder(cfg, chain, handler, prev, req, wr);
  }

  /** A handler that records status `n`, then sends `text`. */
  function StatusThenSend(n: int, text: string): WebHandler
  {
    (s: CtxState) => Step(s.Status(n).SendString(text, []).state, None)
  }

  /**
   * `ReplyStatus` is bookkeeping only: the body writers never pass it to
   * `WriteHeader`, so after `Status(n)` the first body write still sends
   * 200. The status `n` is kept (and logged), but a different one goes out.
   */
  lemma StatusNeverReachesTheWire(cfg: Settings, n: int, text: string, prev: CtxState, req: Request, wr: Writer)
    requires text != "" && wr.status.None?
    ensures var o := Serve(cfg, [], StatusThenSend(n, text), prev, req, wr);
            o.state.replyStatus == (if n < StatusOK then StatusOK else n) &&
            o.state.writer.status == Some(StatusOK)
  {
    var st := StartState(prev, req, wr);
    assert RunChain([], st) == Passed(st);
    SendAfterStatus(ApplyCors(cfg, st), n, text);
  }

  /** The handler step of `StatusThenSend`, from a writer that has sent nothing or 200. */
  lemma SendAfterStatus(c: CtxState, n: int, text: string)
    requires text != "" && (c.writer.status.None? || c.writer.status == Some(StatusOK))
    ensures var s := Settle(StatusThenSend(n, text)(c));
            s.replyStatus == (if n < StatusOK then StatusOK else n) && s.writer.status == Some(StatusOK)
  {
    var h := StatusThenSend(n, text)(c);
    assert h == Step(c.Status(n).SendString(text, []).state, None);
  }

  /** A handler that echoes the query parameter `key` into the body. */
  function EchoParam(key: string): WebHandler
  {
    (s: CtxState) => var p := s.GetParam(key); Step(p.state.SendString(p.value, []).state, None)
  }

  /**
   * The context is reused across requests and its query cache is never
   * cleared: a second request on the same route reads the first request's
   * query parameters.
   */
  lemma SecondRequestSeesFirstQuery(cfg: Settings, key: string, req1: Request, wr1: Writer, req2: Request, wr2: Writer)
    requires !CorsEnabled(cfg)
    requires !wr2.broken
    ensures var first := Serve(cfg, [], EchoParam(key), FreshState, req1, wr1);
            var second := Serve(cfg, [], EchoParam(key), first.state, req2, wr2);
            second.state.writer.body == wr2.body + HeaderGet(req1.query, key)
  {
    EchoServe(cfg, key, FreshState, req1, wr1);
    EchoServe(cfg, key, Serve(cfg, [], EchoParam(key), FreshState, req1, wr1).state, req2, wr2);
  }

  /** One request on an `EchoParam` route: the cache holds the earliest query, and that is what is echoed. */
  lemma EchoServe(cfg: Settings, key: string, prev: CtxState, req: Request, wr: Writer)
    requires !CorsEnabled(cfg)
    ensures var o := Serve(cfg, [], EchoParam(key), prev, req, wr);
            var q := if prev.query.Some? then prev.query.value else req.query;
            o.state.query == Some(q) && (!wr.broken ==> o.state.writer.body == wr.body + HeaderGet(q, key))
  {
    var st := StartState(prev, req, wr);
    assert RunChain([], st) == Passed(st);
    assert ApplyCors(cfg, st) == st;
    var p := st.GetParam(key);
    assert EchoParam(key)(st) == Step(p.state.SendString(p.value, []).state, None);
  }

  /**
   * `ReplyStatus` is never reset either: after a request that set it, a
   * later request whose handler sets nothing skips the default-200 step and
   * is logged with the earlier status.
   */
  lemma StaleReplyStatusSkipsDefault(cfg: Settings, prev: CtxState, req: Request, wr: Writer)
    requires !CorsEnabled(cfg)
    requires prev.replyStatus != 0
    ensures var o := Serve(cfg, [], (s: CtxState) => Step(s, None), prev, req, wr);
            o.state.replyStatus == prev.replyStatus && o.state.writer == wr
  {
  }

  /** The arguments `addRoutes` receives from a group: its middlewares and its router. */
  datatype GroupArgs = GroupArgs(middlewares: seq<Middleware>, router: ServeMux)

  /**
   * The route `key` was added to `mux` with handler `f` and chain `chain`,
   * with a context of its own allocated for it; nothing else changed.
   */
  twostate predicate Added(mux: ServeMux, key: string, f: WebHandler, chain: seq<Middleware>)
    reads mux, mux.Contexts()
  {
    key in mux.routes && mux.mount == old(mux.mount) &&
    mux.routes == old(mux.routes)[key := mux.routes[key]] &&
    mux.routes[key].handler == f &&
    mux.routes[key].chain == chain &&
    fresh(mux.routes[key].ctx) &&
    mux.routes[key].ctx.State() == FreshState
  }

  /**
   * The middleware loop of the handler closure: each middleware in turn;
   * the first error is answered with `http.Error` and ends the request.
   */
  method RunMiddlewares(wc: WebContext, chain: seq<Middleware>) returns (trace: seq<Event>, passed: bool)
    modifies wc
    ensures var r := RunChain(chain, old(wc.State()));
            passed == r.Passed? &&
            (r.Passed? ==> wc.State() == r.state && trace == ChainEvents(|chain|)) &&
            (r.Failed? ==> wc.State() == r.state.(writer := HttpError(r.state.writer, r.err.Message(), MiddlewareErrorStatus(r.err))) &&
                           trace == ChainEvents(r.index + 1))
  {
    ghost var s0 := wc.State();
    trace := [];
    var i := 0;
    while i < |chain|
      invariant 0 <= i <= |chain|
      invariant RunChain(chain[..i], s0) == Passed(wc.State())
      invariant trace == ChainEvents(i)
    {
      trace := trace + [MiddlewareRan(i)];
      RunChainSnoc(chain, s0, i);
      var e := ApplyMiddleware(wc, chain[i]);
      if e.Some? {
        assert RunChain(chain[..i + 1], s0) == Failed(i, e.value, wc.State());
        FailurePersists(chain, s0, i + 1);
        wc.writer := HttpError(wc.writer, e.value.Message(), MiddlewareErrorStatus(e.value));
        return trace, false;
      }
      i := i + 1;
    }
    assert chain[..|chain|] == chain;
    passed := true;
  }

  /** The handler run on the context, then `SendError` on its error, then the default status. */
  method HandleAndSettle(wc: WebContext, handler: WebHandler)
    modifies wc
    ensures wc.State() == Settle(handler(old(wc.State())))
  {
    var h := handler(wc.State());
    wc.Load(h.state);
    if h.err.Some? {
      wc.SendError(h.err.value);
    }
    FinaliseStatus(wc);
  }

  /** After the handler: an unset `ReplyStatus` becomes 200 and 200 is written. */
  method FinaliseStatus(wc: WebContext)
    modifies wc
    ensures wc.State() == Finalise(old(wc.State()))
  {
    if wc.replyStatus == 0 {
      wc.replyStatus := StatusOK;
      wc.writer := wc.writer.WriteHeader(StatusOK);
    }
  }

  class Web {
    const router: ServeMux
    var middlewares: seq<Middleware>
    var logging: bool
    var defaultCors: bool
    var customHeader: Option<seq<string>>
    var custMethods: Option<seq<string>>

    function Config(): Settings
      reads this
    {
      Settings(logging, defaultCors, customHeader, custMethods)
    }

    /** The server as first built: an empty router and no middlewares, logging or CORS. */
    constructor ()
      ensures fresh(router) && router.routes == map[] && router.mount == None
      ensures middlewares == [] && Config() == Settings(false, false, None, None)
    {
      router := new ServeMux();
      middlewares := [];
      logging := false;
      defaultCors := false;
      customHeader := None;
      custMethods := None;
    }

    method WithLogging() returns (self: Web)
      modifies this
      ensures self == this
      ensures Config() == old(Config()).(logging := true) && middlewares == old(middlewares)
    {
      logging := true;
      self := this;
    }

    method WithDefaultCors() returns (self: Web)
      modifies this
      ensures self == this
      ensures Config() == old(Config()).(defaultCors := true) && middlewares == old(middlewares)
    {
      defaultCors := true;
      self := this;
    }

    /**
     * Non-nil `headers`, then non-nil `methods`, are stored in
     * `customHeader`; `custMethods` is never assigned.
     */
    method WithCustomCors(headers: Option<seq<string>>, methods: Option<seq<string>>) returns (self: Web)
      modifies this
      ensures self == this
      ensures customHeader == if methods.Some? then methods else if headers.Some? then headers else old(customHeader)
      ensures custMethods == old(custMethods)
      ensures logging == old(logging) && defaultCors == old(defaultCors) && middlewares == old(middlewares)
    {
      if headers.Some? {
        customHeader := headers;
      }
      if methods.Some? {
        customHeader := methods;
      }
      self := this;
    }

    /** `Use(f)`: append to the global list; routes already registered keep their chains. */
    method Use(f: Middleware)
      modifies this
      ensures middlewares == old(middlewares) + [f]
      ensures Config() == old(Config())
      ensures router.routes == old(router.routes)
    {
      middlewares := middlewares + [f];
    }

    /** The router a registration goes to: the group's if there is one, else the top-level one. */
    function Target(group: Option<GroupArgs>): ServeMux
    {
      if group.Some? then group.value.router else router
    }

    /**
     * `addRoutes(pattern, f, group...)`: a new context, a copy of the
     * global middlewares overwritten by the group's, and the route
     * registered in the group's router or the top-level one.
     */
    method AddRoute(pattern: string, f: WebHandler, group: Option<GroupArgs>)
      modifies Target(group)
      ensures Added(Target(group), pattern, f,
                    if group.Some? then GoCopy(middlewares, group.value.middlewares) else middlewares)
    {
      var wc := new WebContext();
      var chain := middlewares;
      if group.Some? {
        chain := GoCopy(chain, group.value.middlewares);
        group.value.router.HandleFunc(pattern, Route(f, chain, wc));
      } else {
        router.HandleFunc(pattern, Route(f, chain, wc));
      }
    }

    method Get(pattern: string, f: WebHandler) returns (err: Option<WebError>)
      modifies router
      ensures err == if HasPrefix(pattern, "/") then None else Some(InvalidPathError)
      ensures err.Some? ==> unchanged(router)
      ensures err.None? ==> Added(router, RouteKey(MethodGet, pattern), f, middlewares)
    {
      if !HasPrefix(pattern, "/") {
        return Some(InvalidPathError);
      }
      AddRoute(MethodGet + " " + pattern, f, None);
      return None;
    }

    method Post(pattern: string, f: WebHandler) returns (err: Option<WebError>)
      modifies router
      ensures err == if HasPrefix(pattern, "/") then None else Some(InvalidPathError)
      ensures err.Some? ==> unchanged(router)
      ensures err.None? ==> Added(router, RouteKey(MethodPost, pattern), f, middlewares)
    {
      if !HasPrefix(pattern, "/") {
        return Some(InvalidPathError);
      }
      AddRoute(MethodPost + " " + pattern, f, None);
      return None;
    }

    method Delete(pattern: string, f: WebHandler) returns (err: Option<WebError>)
      modifies router
      ensures err == if HasPrefix(pattern, "/") then None else Some(InvalidPathError)
      ensures err.Some? ==> unchanged(router)
      ensures err.None? ==> Added(router, RouteKey(MethodDelete, pattern), f, middlewares)
    {
      if !HasPrefix(pattern, "/") {
        return Some(InvalidPathError);
      }
      AddRoute(MethodDelete + " " + pattern, f, None);
      return None;
    }

    method Put(pattern: string, f: WebHandler) returns (err: Option<WebError>)
      modifies router
      ensures err == if HasPrefix(pattern, "/") then None else Some(InvalidPathError)
      ensures err.Some? ==> unchanged(router)
      ensures err.None? ==> Added(router, RouteKey(MethodPut, pattern), f, middlewares)
    {
      if !HasPrefix(pattern, "/") {
        return Some(InvalidPathError);
      }
      AddRoute(MethodPut + " " + pattern, f, None);
      return None;
    }

    method Options(pattern: string, f: WebHandler) returns (err: Option<WebError>)
      modifies router
      ensures err == if HasPrefix(pattern, "/") then None else Some(InvalidPathError)
      ensures err.Some? ==> unchanged(router)
      ensures err.None? ==> Added(router, RouteKey(MethodOptions, pattern), f, middlewares)
    {
      if !HasPrefix(pattern, "/") {
        return Some(InvalidPathError);
      }
      AddRoute(MethodOptions + " " + pattern, f, None);
      return None;
    }

    method Patch(pattern: string, f: WebHandler) returns (err: Option<WebError>)
      modifies router
      ensures err == if HasPrefix(pattern, "/") then None else Some(InvalidPathError)
      ensures err.Some? ==> unchanged(router)
      ensures err.None? ==> Added(router, RouteKey(MethodPatch, pattern), f, middlewares)
    {
      if !HasPrefix(pattern, "/") {
        return Some(InvalidPathError);
      }
      AddRoute(MethodPatch + " " + pattern, f, None);
      return None;
    }

    /** The CORS step of the handler closure, with the server's current settings. */
    method ApplyCorsTo(wc: WebContext) returns (applied: bool)
      modifies wc
      ensures wc.State() == ApplyCors(Config(), old(wc.State()))
      ensures applied == CorsEnabled(Config())
    {
      applied := true;
      if defaultCors {
        MiddlewareCorsDefault(wc);
      } else if custMethods.Some? || customHeader.Some? {
        MiddlewareCorsCustom(wc, customHeader, custMethods);
      } else {
        applied := false;
      }
    }

    /**
     * The closure once every middleware let the request through: CORS, the
     * handler and its aftermath, then the log line. Returns the events after
     * the middlewares'.
     */
    method AfterMiddlewares(wc: WebContext, handler: WebHandler, ghost n: nat) returns (tail: seq<Event>)
      modifies wc
      ensures AfterChain(Config(), n, handler, old(wc.State())) == Outcome(wc.State(), ChainEvents(n) + tail)
    {
      ghost var st := wc.State();
      var cors := ApplyCorsTo(wc);
      tail := if cors then [CorsApplied] else [];
      assert tail == CorsEvents(Config());
      HandleAndSettle(wc, handler);
      tail := tail + [HandlerRan];
      if logging {
        tail := tail + [RequestLogged(wc.replyStatus, wc.request.host, wc.request.httpMethod, wc.request.path)];
      }
      assert tail == CorsEvents(Config()) + [HandlerRan] + LogEvents(Config(), wc.State());
      assert ChainEvents(n) + tail == ChainEvents(n) + CorsEvents(Config()) + [HandlerRan] + LogEvents(Config(), wc.State());
    }

    /**
     * The handler closure of `addRoutes`, serving one request on `route`
     * with the server's current settings. Returns what it did, in order.
     */
    method Dispatch(route: Route, req: Request, wr: Writer) returns (trace: seq<Event>)
      modifies route.ctx
      ensures var o := Serve(Config(), route.chain, route.handler, old(route.ctx.State()), req, wr);
              route.ctx.State() == o.state && trace == o.trace
    {
      var wc := route.ctx;
      ghost var prev := wc.State();
      wc.request := req;
      wc.writer := wr;
      assert wc.State() == StartState(prev, req, wr);
      var passed;
      trace, passed := RunMiddlewares(wc, route.chain);
      if passed {
        ghost var st := wc.State();
        assert Serve(Config(), route.chain, route.handler, prev, req, wr) == AfterChain(Config(), |route.chain|, route.handler, st);
        var tail := AfterMiddlewares(wc, route.handler, |route.chain|);
        trace := trace + tail;
      }
    }

    /**
     * A router serving a request: the matching route's handler, or the
     * router's own 405 or 404 answer.
     */
    method ServeHTTP(mux: ServeMux, req: Request, wr: Writer) returns (resp: Writer, trace: seq<Event>)
      modifies mux.Target(req.httpMethod, req.path)
      ensures match mux.Lookup(req.httpMethod, req.path)
              case Found(r) =>
                var o := Serve(Config(), r.chain, r.handler, old(r.ctx.State()), req, wr);
                r.ctx.State() == o.state && resp == o.state.writer && trace == o.trace
              case MethodNotAllowed =>
                resp == HttpError(wr, "Method Not Allowed", StatusMethodNotAllowed) && trace == []
              case NotFound =>
                resp == HttpError(wr, "404 page not found", StatusNotFound) && trace == []
    {
      match mux.Lookup(req.httpMethod, req.path) {
        case Found(r) =>
          trace := Dispatch(r, req, wr);
          resp := r.ctx.writer;
        case MethodNotAllowed =>
          resp := HttpError(wr, "Method Not Allowed", StatusMethodNotAllowed);
          trace := [];
        case NotFound =>
          resp := HttpError(wr, "404 page not found", StatusNotFound);
          trace := [];
      }
    }

    /** `WebTest(w, r)`: the top-level router serves the request. */
    method WebTest(req: Request, wr: Writer) returns (resp: Writer, trace: seq<Event>)
      modifies router.Target(req.httpMethod, req.path)
      ensures match router.Lookup(req.httpMethod, req.path)
              case Found(r) =>
                var o := Serve(Config(), r.chain, r.handler, old(r.ctx.State()), req, wr);
                r.ctx.State() == o.state && resp == o.state.writer && trace == o.trace
              case MethodNotAllowed =>
                resp == HttpError(wr, "Method Not Allowed", StatusMethodNotAllowed) && trace == []
              case NotFound =>
                resp == HttpError(wr, "404 page not found", StatusNotFound) && trace == []
    {
      resp, trace := ServeHTTP(router, req, wr);
    }
  }
}

=== FILE: webconstants.dfy ===
/**
 * The toolkit's error values and messages (webconstants.go, and the
 * `InvalidToken` / `ExpiredToken` error types of middlewares.go).
 */
module WebErrors {

  const MsgNotFound := "Not Found"
  const MsgInternalServerError := "Internal Server Error"
  const MsgInvalidData := "Invalid data"
  const Authorization := "Authorization"
  const MsgInvalidToken := "Invalid Token"
  const MsgExpiredToken := "Expired Token"
  const MsgInvalidPath := "Invalid path, mising /"

  /**
   * An `error` value. `InvalidToken{}` and `ExpiredToken{}` are the two
   * comparable error types; `Plain` is an `errors.New` value (compared by
   * identity, so never equal to either); `Wrapped` is an error that wraps
   * another one, as `fmt.Errorf("...%w...", inner)` makes.
   */
  datatype WebError =
    | InvalidToken
    | ExpiredToken
    | Plain(msg: string)
    | Wrapped(msg: string, inner: WebError)
  {
    /**
     * `err.Error()`: the two token errors report their constant messages;
     * any other error reports its own text.
     */
    function Message(): (m: string)
      ensures InvalidToken? ==> m == MsgInvalidToken
      ensures ExpiredToken? ==> m == MsgExpiredToken
      ensures Plain? || Wrapped? ==> m == msg
    {
      match this
      case InvalidToken => MsgInvalidToken
      case ExpiredToken => MsgExpiredToken
      case Plain(m) => m
      case Wrapped(m, _) => m
    }

    /** The error at the end of the unwrap chain (`errors.Unwrap` until nil). */
    function Root(): (r: WebError)
      ensures !r.Wrapped?
    {
      match this
      case Wrapped(_, inner) => inner.Root()
      case _ => this
    }

    /**
     * `errors.Is(e, ExpiredToken{}) || errors.Is(e, InvalidToken{})`: the
     * error or one it wraps is one of the two token errors. Only the end of
     * the unwrap chain can be one, since the token errors wrap nothing.
     */
    predicate IsTokenError()
      ensures IsTokenError() <==> Root() == InvalidToken || Root() == ExpiredToken
    {
      match this
      case InvalidToken => true
      case ExpiredToken => true
      case Plain(_) => false
      case Wrapped(_, inner) => inner.IsTokenError()
    }
  }

  /** `errors.New(InvalidPath)`. */
  const InvalidPathError := Plain(MsgInvalidPath)
  /** `errors.New(InvalidData)`. */
  const InvalidDataError := Plain(MsgInvalidData)
}

=== FILE: webcontext.dfy ===
/**
 * The per-route request context of webcontext.go: its state as a value
 * (`CtxState`, with one function per operation) and the `WebContext` object
 * whose methods update that state in place.
 */
module Context {
  import opened Wrappers
  import opened Net
  import opened WebErrors

  const ContentType := "Content-Type"
  const TextPlain := "text/plain; charset=utf-8"
  const TextHtml := "text/html; charset=utf-8"
  const OctetStream := "application/octet-stream"
  const ApplicationJson := "application/json"

  /** Parsed query parameters (`url.Values`); `Get` follows the same rule as a header's. */
  type Query = map<string, seq<string>>

  /** A value handed to `JSON`: either it encodes to `text`, or encoding fails. */
  datatype JsonData = Encodable(text: string) | Unencodable

  /** The JSON decoder applied to a request body: nil on success, or the decode error. */
  type Decoder = string -> Option<WebError>

  /** A context operation's outcome: the new state and the `error` it returns. */
  datatype Step = Step(state: CtxState, err: Option<WebError>)

  /** A `WebHandler`: runs against the context and returns an error or nil. */
  type WebHandler = CtxState -> Step

  datatype ParamResult = ParamResult(state: CtxState, value: string)

  /** The fields of a `WebContext`: `Request`, `Writer`, the `query` cache and `ReplyStatus`. */
  datatype CtxState = CtxState(request: Request, writer: Writer, query: Option<Query>, replyStatus: int)
  {
    /** `ReplyStatus` is unset (0) or a status of at least 200. */
    predicate StatusUnsetOrValid()
    {
      replyStatus == 0 || replyStatus >= StatusOK
    }

    /** `GetParam(key)`: parse the request's query into the cache if it is still empty, then read from the cache. */
    function GetParam(key: string): (r: ParamResult)
      ensures r.state.query.Some?
      ensures query.Some? ==> r.state == this
      ensures query.None? ==> r.state == this.(query := Some(request.query))
      ensures r.value == HeaderGet(r.state.query.value, key)
    {
      var q := if query.None? then request.query else query.value;
      ParamResult(this.(query := Some(q)), HeaderGet(q, key))
    }

    /** `Status(n)`: record the status, raising anything below 200 to 200. */
    function Status(status: int): (r: CtxState)
      ensures r.replyStatus >= StatusOK
      ensures status >= StatusOK ==> r.replyStatus == status
      ensures status < StatusOK ==> r.replyStatus == StatusOK
      ensures r.request == request && r.writer == writer && r.query == query
    {
      this.(replyStatus := if status < StatusOK then StatusOK else status)
    }

    /**
     * `SendError(err)`: `ReplyStatus` becomes 500 whatever it was, and the
     * message goes out through `http.Error`.
     */
    function SendError(e: WebError): (r: CtxState)
      ensures r.replyStatus == StatusInternalServerError
      ensures r.writer.status == if writer.status.Some? then writer.status else Some(StatusInternalServerError)
      ensures r.writer.body == if writer.broken then writer.body else writer.body + e.Message() + "\n"
      ensures HeaderGet(r.writer.header, ContentType) == TextPlain
      ensures r.request == request && r.query == query
    {
      this.(replyStatus := StatusInternalServerError,
            writer := HttpError(writer, e.Message(), StatusInternalServerError))
    }

    /**
     * `ParseBody(target)`: a nil target is refused with `InvalidData`;
     * otherwise the decoder's own result is returned. The state is untouched.
     */
    function ParseBody(target: Option<Decoder>): (err: Option<WebError>)
      ensures target.None? ==> err == Some(InvalidDataError)
      ensures target.Some? ==> err == target.value(request.body)
    {
      if target.None? then Some(InvalidDataError) else target.value(request.body)
    }

    /** The status left after a body-sending call: 200 if unset, unchanged otherwise. */
    function DefaultStatus(): (status: int)
      ensures replyStatus != 0 ==> status == replyStatus
      ensures replyStatus == 0 ==> status == StatusOK
    {
      if replyStatus == 0 then StatusOK else replyStatus
    }

    /**
     * `JSON(data)`: nil data is refused with `InvalidData` and nothing
     * changes; otherwise the content type is set, an unset status becomes 200
     * and the encoding (with a trailing newline) is written. Encoding and
     * write failures are only logged: nil is returned.
     */
    function JSON(data: Option<JsonData>): (r: Step)
      ensures r.err.Some? <==> data.None?
      ensures data.None? ==> r == Step(this, Some(InvalidDataError))
      ensures data.Some? ==> r.state.replyStatus == DefaultStatus()
      ensures data.Some? ==> HeaderGet(r.state.writer.header, ContentType) == ApplicationJson
      ensures data.Some? && data.value.Encodable? && !writer.broken ==>
                r.state.writer.body == writer.body + data.value.text + "\n"
      ensures data.Some? && (data.value.Unencodable? || writer.broken) ==> r.state.writer.body == writer.body
      ensures data.Some? ==>
                r.state.writer.status == if data.value.Unencodable? || writer.status.Some? then writer.status else Some(StatusOK)
      ensures forall k :: k != ContentType ==> SameEntry(writer.header, r.state.writer.header, k)
      ensures r.state.writer.broken == writer.broken
      ensures r.state.request == request && r.state.query == query
    {
      if data.None? then Step(this, Some(InvalidDataError))
      else
        var w := writer.SetHeader(ContentType, ApplicationJson);
        var w' := match data.value
          case Encodable(text) => w.Write(text + "\n").writer
          case Unencodable => w;
        Step(this.(writer := w', replyStatus := DefaultStatus()), None)
    }

    /**
     * `SendString(data, contentType...)`: the content type is the first
     * optional argument, or plain text; an unset status becomes 200; the
     * text is copied to the writer. Always returns nil.
     */
    function SendString(data: string, contentType: seq<string>): (r: Step)
      ensures r.err == None
      ensures r.state.replyStatus == DefaultStatus()
      ensures HeaderGet(r.state.writer.header, ContentType) == if |contentType| == 0 then TextPlain else contentType[0]
      ensures r.state.writer.body == if writer.broken then writer.body else writer.body + data
      ensures r.state.writer.status == if data == "" || writer.status.Some? then writer.status else Some(StatusOK)
      ensures forall k :: k != ContentType ==> SameEntry(writer.header, r.state.writer.header, k)
      ensures r.state.writer.broken == writer.broken
      ensures r.state.request == request && r.state.query == query
    {
      var ct := if |contentType| == 0 then TextPlain else contentType[0];
      var w := writer.SetHeader(ContentType, ct).Copy(data).writer;
      Step(this.(writer := w, replyStatus := DefaultStatus()), None)
    }

    /** `SendBytes(data)`: as `SendString`, with content type `application/octet-stream`. */
    function SendBytes(data: string): (r: Step)
      ensures r.err == None
      ensures r.state.replyStatus == DefaultStatus()
      ensures HeaderGet(r.state.writer.header, ContentType) == OctetStream
      ensures r.state.writer.body == if writer.broken then writer.body else writer.body + data
      ensures r.state.writer.status == if data == "" || writer.status.Some? then writer.status else Some(StatusOK)
      ensures forall k :: k != ContentType ==> SameEntry(writer.header, r.state.writer.header, k)
      ensures r.state.writer.broken == writer.broken
      ensures r.state.request == request && r.state.query == query
    {
      var w := writer.SetHeader(ContentType, OctetStream).Copy(data).writer;
      Step(this.(writer := w, replyStatus := DefaultStatus()), None)
    }

    /** `RenderString(data)`: `SendString` with content type `text/html; charset=utf-8`. */
    function RenderString(data: string): (r: Step)
      ensures r.err == None
      ensures HeaderGet(r.state.writer.header, ContentType) == TextHtml
      ensures r.state.writer.body == if writer.broken then writer.body else writer.body + data
      ensures r.state.replyStatus == DefaultStatus()
      ensures r.state.writer.status == if data == "" || writer.status.Some? then writer.status else Some(StatusOK)
      ensures forall k :: k != ContentType ==> SameEntry(writer.header, r.state.writer.header, k)
      ensures r.state.writer.broken == writer.broken
      ensures r.state.request == request && r.state.query == query
    {
      SendString(data, [TextHtml])
    }
  }

  /** What a context holds before its first request: nil request and writer, no cache, status 0. */
  const NoRequest := Request("", "", "", map[], map[], "")
  const FreshState := CtxState(NoRequest, FreshWriter, None, 0)

  /** Every context operation keeps `ReplyStatus` unset or at least 200. */
  lemma OperationsKeepStatusValid(s: CtxState, n: int, e: WebError, key: string, text: string, ct: seq<string>, data: Option<JsonData>)
    requires s.StatusUnsetOrValid()
    ensures s.Status(n).StatusUnsetOrValid()
    ensures s.SendError(e).StatusUnsetOrValid()
    ensures s.JSON(data).state.StatusUnsetOrValid()
    ensures s.SendString(text, ct).state.StatusUnsetOrValid()
    ensures s.SendBytes(text).state.StatusUnsetOrValid()
    ensures s.RenderString(text).state.StatusUnsetOrValid()
    ensures s.GetParam(key).state.StatusUnsetOrValid()
  {
  }

  /**
   * Once a status is set, the body-sending calls keep it: only `Status`
   * and `SendError` change a non-zero `ReplyStatus`.
   */
  lemma BodyWritesKeepSetStatus(s: CtxState, text: string, ct: seq<string>, data: Option<JsonData>)
    requires s.replyStatus != 0
    ensures s.JSON(data).state.replyStatus == s.replyStatus
    ensures s.SendString(text, ct).state.replyStatus == s.replyStatus
    ensures s.SendBytes(text).state.replyStatus == s.replyStatus
    ensures s.RenderString(text).state.replyStatus == s.replyStatus
  {
  }

  /**
   * The query is parsed once: after the first `GetParam`, later calls read
   * the cache, even if the request has been replaced in the meantime.
   */
  lemma QueryParsedOnce(s: CtxState, k1: string, k2: string, later: Request)
    ensures var s1 := s.GetParam(k1).state;
            var again := s1.(request := later).GetParam(k2);
            again.state == s1.(request := later) &&
            again.value == HeaderGet(if s.query.Some? then s.query.value else s.request.query, k2)
  {
  }

  /**
   * `WebContext`: one per registered route, allocated at registration and
   * handed to every request of that route.
   */
  class WebContext {
    var request: Request
    var writer: Writer
    var query: Option<Query>
    var replyStatus: int

    function State(): CtxState
      reads this
    {
      CtxState(request, writer, query, replyStatus)
    }

    constructor ()
      ensures State() == FreshState
    {
      request := NoRequest;
      writer := FreshWriter;
      query := None;
      replyStatus := 0;
    }

    /** Store the state a handler or middleware left behind. */
    method Load(s: CtxState)
      modifies this
      ensures State() == s
    {
      request, writer, query, replyStatus := s.request, s.writer, s.query, s.replyStatus;
    }

    method GetParam(key: string) returns (v: string)
      modifies this
      ensures var r := old(State()).GetParam(key); State() == r.state && v == r.value
    {
      if query.None? {
        query := Some(request.query);
      }
      v := HeaderGet(query.value, key);
    }

    /** Returns the same context, for chaining. */
    method Status(status: int) returns (self: WebContext)
      modifies this
      ensures self == this
      ensures State() == old(State()).Status(status)
    {
      var s := status;
      if s < StatusOK {
        s := StatusOK;
      }
      replyStatus := s;
      self := this;
    }

    method SendError(e: WebError)
      modifies this
      ensures State() == old(State()).SendError(e)
    {
      replyStatus := StatusInternalServerError;
      writer := HttpError(writer, e.Message(), replyStatus);
    }

    method ParseBody(target: Option<Decoder>) returns (err: Option<WebError>)
      ensures err == State().ParseBody(target)
    {
      if target.None? {
        return Some(InvalidDataError);
      }
      err := target.value(request.body);
    }

    method JSON(data: Option<JsonData>) returns (err: Option<WebError>)
      modifies this
      ensures var r := old(State()).JSON(data); State() == r.state && err == r.err
    {
      if data.None? {
        return Some(InvalidDataError);
      }
      writer := writer.SetHeader(ContentType, ApplicationJson);
      if replyStatus == 0 {
        replyStatus := StatusOK;
      }
      match data.value {
        case Encodable(text) =>
          var res := writer.Write(text + "\n");
          writer := res.writer;
        case Unencodable =>
      }
      err := None;
    }

    method SendString(data: string, contentType: seq<string>) returns (err: Option<WebError>)
      modifies this
      ensures var r := old(State()).SendString(data, contentType); State() == r.state && err == r.err
    {
      if |contentType| == 0 {
        writer := writer.SetHeader(ContentType, TextPlain);
      } else {
        writer := writer.SetHeader(ContentType, contentType[0]);
      }
      if replyStatus == 0 {
        replyStatus := StatusOK;
      }
      var res := writer.Copy(data);
      writer := res.writer;
      err := None;
    }

    method SendBytes(data: string) returns (err: Option<WebError>)
      modifies this
      ensures var r := old(State()).SendBytes(data); State() == r.state && err == r.err
    {
      writer := writer.SetHeader(ContentType, OctetStream);
      if replyStatus == 0 {
        replyStatus := StatusOK;
      }
      var res := writer.Copy(data);
      writer := res.writer;
      err := None;
    }

    method RenderString(data: string) returns (err: Option<WebError>)
      modifies this
      ensures var r := old(State()).RenderString(data); State() == r.state && err == r.err
    {
      err := SendString(data, [TextHtml]);
    }
  }
}

=== FILE: webgroup.dfy ===
/**
 * webgroup.go, with `Web.Group` from web.go: a group of routes under a
 * common prefix, with middlewares of its own and a router of its own that
 * is mounted at "/" on the server's router.
 */
module Group {
  import opened Wrappers
  import opened Net
  import opened WebErrors
  import opened Text
  import opened Context
  import opened Middlewares
  import opened Mux
  import opened Web

  class WebGroup {
    const router: ServeMux
    const pattern: string
    const w: Web
    var middlewares: seq<Middleware>

    /** The group's router is not the server's own. */
    ghost predicate Valid()
      reads this, w
    {
      router != w.router
    }

    constructor (w: Web, pattern: string)
      ensures Valid() && fresh(router) && router.routes == map[] && router.mount == None
      ensures this.w == w && this.pattern == pattern && middlewares == []
    {
      router := new ServeMux();
      this.pattern := pattern;
      this.w := w;
      middlewares := [];
    }

    /** `Use(f)`: append to the group's list. */
    method Use(f: Middleware)
      modifies this
      ensures middlewares == old(middlewares) + [f]
    {
      middlewares := middlewares + [f];
    }

    /**
     * Registration shared by the six methods: under the group's router,
     * with key "METHOD prefix+pattern", and with the server's current
     * global list overwritten position by position by the group's list.
     */
    method Register(httpMethod: string, p: string, f: WebHandler) returns (err: Option<WebError>)
      requires Valid()
      modifies router
      ensures err == if HasPrefix(p, "/") then None else Some(InvalidPathError)
      ensures err.Some? ==> router.routes == old(router.routes)
      ensures err.None? ==> Added(router, RouteKey(httpMethod, pattern + p), f, GoCopy(w.middlewares, middlewares))
      ensures w.router.routes == old(w.router.routes)
    {
      if !HasPrefix(p, "/") {
        return Some(InvalidPathError);
      }
      var key := httpMethod + " " + pattern + p;
      assert key == RouteKey(httpMethod, pattern + p);
      w.AddRoute(key, f, Some(GroupArgs(middlewares, router)));
      return None;
    }

    method Get(p: string, f: WebHandler) returns (err: Option<WebError>)
      requires Valid()
      modifies router
      ensures err == if HasPrefix(p, "/") then None else Some(InvalidPathError)
      ensures err.Some? ==> router.routes == old(router.routes)
      ensures err.None? ==> Added(router, RouteKey(MethodGet, pattern + p), f, GoCopy(w.middlewares, middlewares))
      ensures w.router.routes == old(w.router.routes)
    {
      err := Register(MethodGet, p, f);
    }

    method Post(p: string, f: WebHandler) returns (err: Option<WebError>)
      requires Valid()
      modifies router
      ensures err == if HasPrefix(p, "/") then None else Some(InvalidPathError)
      ensures err.Some? ==> router.routes == old(router.routes)
      ensures err.None? ==> Added(router, RouteKey(MethodPost, pattern + p), f, GoCopy(w.middlewares, middlewares))
      ensures w.router.routes == old(w.router.routes)
    {
      err := Register(MethodPost, p, f);
    }

    method Put(p: string, f: WebHandler) returns (err: Option<WebError>)
      requires Valid()
      modifies router
      ensures err == if HasPrefix(p, "/") then None else Some(InvalidPathError)
      ensures err.Some? ==> router.routes == old(router.routes)
      ensures err.None? ==> Added(router, RouteKey(MethodPut, pattern + p), f, GoCopy(w.middlewares, middlewares))
      ensures w.router.routes == old(w.router.routes)
    {
      err := Register(MethodPut, p, f);
    }

    method Patch(p: string, f: WebHandler) returns (err: Option<WebError>)
      requires Valid()
      modifies router
      ensures err == if HasPrefix(p, "/") then None else Some(InvalidPathError)
      ensures err.Some? ==> router.routes == old(router.routes)
      ensures err.None? ==> Added(router, RouteKey(MethodPatch, pattern + p), f, GoCopy(w.middlewares, middlewares))
      ensures w.router.routes == old(w.router.routes)
    {
      err := Register(MethodPatch, p, f);
    }

    method Delete(p: string, f: WebHandler) returns (err: Option<WebError>)
      requires Valid()
      modifies router
      ensures err == if HasPrefix(p, "/") then None else Some(InvalidPathError)
      ensures err.Some? ==> router.routes == old(router.routes)
      ensures err.None? ==> Added(router, RouteKey(MethodDelete, pattern + p), f, GoCopy(w.middlewares, middlewares))
      ensures w.router.routes == old(w.router.routes)
    {
      err := Register(MethodDelete, p, f);
    }

    method Options(p: string, f: WebHandler) returns (err: Option<WebError>)
      requires Valid()
      modifies router
      ensures err == if HasPrefix(p, "/") then None else Some(InvalidPathError)
      ensures err.Some? ==> router.routes == old(router.routes)
      ensures err.None? ==> Added(router, RouteKey(MethodOptions, pattern + p), f, GoCopy(w.middlewares, middlewares))
      ensures w.router.routes == old(w.router.routes)
    {
      err := Register(MethodOptions, p, f);
    }
  }

  /**
   * `w.Group(pattern)`: a new group whose router is mounted at "/" on the
   * server's router. A pattern without a leading "/" ends the program
   * (`log.Fatal`), and so does a second group (the router refuses a second
   * "/" pattern); both are `None` here, and then the server's router is
   * unchanged.
   */
  method NewGroup(w: Web, pattern: string) returns (g: Option<WebGroup>)
    modifies w.router
    ensures g.None? <==> !HasPrefix(pattern, "/") || old(w.router.mount).Some?
    ensures g.None? ==> w.router.mount == old(w.router.mount)
    ensures g.Some? ==> g.value.Valid() && fresh(g.value.router) && g.value.router.routes == map[] &&
                        g.value.w == w && g.value.pattern == pattern && g.value.middlewares == [] &&
                        w.router.mount == Some(g.value.router)
    ensures w.router.routes == old(w.router.routes)
  {
    var v := new WebGroup(w, pattern);
    if !HasPrefix(pattern, "/") {
      return None;
    }
    var ok := w.router.Handle(v.router);
    if !ok {
      return None;
    }
    g := Some(v);
  }
}

=== FILE: wrappers.dfy ===
/** Go's nil-able values: a nil slice, a nil error, a nil interface. */
module Wrappers {

  datatype Option<+T> = None | Some(value: T)
}
